=== FILE: README.md ===
# ravenFS chunk replication, modelled in Dafny

ravenFS is a small distributed file store. It has three kinds of service:

- **Gateway** (`backend/main/app.py`). It splits an uploaded file into 4 MiB chunks and writes each chunk to every configured storage node in parallel. It records which nodes acknowledged each chunk with the metadata service.
  - Download races a chunk's holders and joins the parts in order.
  - Delete tells every holder to drop its chunk, then drops the metadata.
- **Metadata registry** (`backend/metadata/app.py`). It is a `files` table and a `chunks` table behind five endpoints: register, add chunks, list, get and delete. The older variant (`metadata/app.py`) has the same five modelled endpoints over the same `files` and `chunks` tables. It also creates a `files_nodfs` table, which is not modelled, and its delete also removes chunk files kept in three local folders.
- **Storage node** (`backend/storagenode2/app.py`). It is a directory of chunk files with upload, download and delete of a chunk. Chunk `id` is stored under the file name `chunk_<id>`. A save or a removal that raises answers 500.

The model is pure and functional:

- Each service state is an immutable value. Each endpoint is a function from a state and a request to a new state and a reply, with its status code.
- The gateway talks to nodes through *transport functions* `put`, `get` and `del`, which give the outcome of one HTTP call.
- The thread pools are not run. Each fan-out takes an explicit completion order, a permutation of its jobs, and the results are proved not to depend on it. One exception: the upload's node writes are applied in chunk order, justified by `StorageNode.UploadsCommute`.
- The `Cluster` module instantiates the transports with real storage-node directories, including the file names whose save or removal raises. It proves the end-to-end properties:
  - when every chunk has a configured node that can save it, an upload can be downloaded back byte for byte, whatever order the races complete in;
  - when some chunk has none, the upload still succeeds but no download of the file can;
  - with distinct configured nodes, deleting an upload succeeds, each holder's entry reports the chunk deleted exactly when that node could remove it, and the metadata service is left with exactly the files and chunk rows it had before the upload (its id counter has moved on).
- Chunk ids depend only on the file name and the chunk order. Two uploads under the same name therefore write to the same chunk files (`Cluster.SameNameOverwrites`).

Modules, one per file:

| file | module | models |
|---|---|---|
| base.dfy | Base | bytes, `Option`, `Attempt` (a returned value or an uncaught exception), `b''.join`, permutations |
| text.dfy | Text | decimal and f-string rendering, chunk ids, `str.strip`, `str.split(',')`, `",".join`, holder-list parsing |
| chunker.dfy | Chunker | `split_file` |
| storage_node.dfy | StorageNode | the storage node |
| coordinators.dfy | Coordinators | the per-node helpers and the three per-chunk fan-outs of the gateway |
| registry.dfy | Registry | the metadata registry |
| legacy_registry.dfy | LegacyRegistry | the older registry |
| gateway.dfy | Gateway | the upload, download and delete endpoints |
| cluster.dfy | Cluster | the gateway wired to storage nodes; end-to-end properties |

Behaviours of the code worth noting, each of which the model follows:

- `raise_for_status` raises only for statuses 400-599. A 1xx or 3xx status from a node therefore counts as success, not only 2xx.
- A pool built with `max_workers=0` raises. So these crash the request with a 500 rather than succeed:
  - uploading an empty file, or uploading with no configured node;
  - a chunk row whose holder list is empty, on download and on delete;
  - a delete of a file with no chunk rows;
  - a download of a file whose `total_chunks` is 0.
- On download, a metadata 404 reaches `raise_for_status` and crashes the request. It does not give a 404.
- On delete, a storage node's 404 goes through `raise_for_status`. It is recorded as an `{"error": ...}` entry for that node.
- Both on download and on delete, `futures[order] = ...` keeps only the last row with a given order.

## Model

| member | source | states |
|---|---|---|
| Text.NatTextRoundTrip | backend/main/app.py:121 | The decimal rendering of a chunk number in an f-string reads back as that number. |
| Text.OrderTextInjective | backend/main/app.py:184 | Rendering an optional chunk order (`None`, negative, non-negative) into a chunk id never maps two orders to the same text. |
| Text.ChunkIdInjective | backend/main/app.py:119-122 | For one file name, different chunk orders give different chunk ids, so the chunks of one upload never overwrite each other on a node. |
| Text.Strip | backend/main/app.py:16 | `str.strip` gives a slice of its input from which only white space (Python's full set) was cut at either end, and which has no white space left at either end. |
| Text.StripStripped | backend/main/app.py:67 | Stripping a string that has no white space at either end changes nothing. |
| Text.SplitJoin | backend/main/app.py:131 | Splitting on a separator what was joined with it, from separator-free parts, gives back the parts. |
| Text.JoinSplit | backend/main/app.py:88 | Joining the pieces of a split with the same separator rebuilds the string. |
| Text.ParseNodeList | backend/main/app.py:66-67 | Every holder parsed from a `storage_nodes` string is non-empty, comma-free and stripped. |
| Text.ParseNodeListComma | backend/main/app.py:67 | A comma splits a holder list into the holders parsed from the text before it followed by those parsed from the text after it. |
| Text.ParseNodeListPiece | backend/main/app.py:67 | A comma-free piece gives one holder, its stripped text, or none when it is blank. |
| Text.NodeListRoundTrip | backend/main/app.py:129-131 | A list of well-formed node names, joined at upload, parses back to exactly that list at download and delete. |
| Text.ParseJoinParse | backend/main/app.py:217 | Re-joining and re-parsing a parsed holder list gives the same holders. |
| Gateway.ConfigFrom | backend/main/app.py:15-16 | Every configured node name is well formed, and a holder list written from the configuration parses back to it. |
| Chunker.SplitFile | backend/main/app.py:26-27 | The chunk count is the least count whose capacity covers the data. Every chunk holds 1..size bytes, and all but the last are full. |
| Chunker.SplitFileJoins | backend/main/app.py:192 | Joining the chunks in order gives back the file's bytes. |
| Chunker.SplitFileSlices | backend/main/app.py:27 | Chunk k is exactly the slice `data[k*size : k*size+size]`, and it starts inside the data. |
| Chunker.ChunkCountIsCeiling | backend/main/app.py:115 | `total_chunks` equals ceil(len / size). |
| Chunker.SplitFileNonEmpty | backend/main/app.py:114-117 | There are no chunks exactly when the file is empty. |
| StorageNode.UploadChunk | backend/storagenode2/app.py:21-37 | A missing part or a missing or empty `chunk_id` gives 400 with the directory unchanged. A save that raises gives 500 with the directory unchanged. Otherwise the answer is 201, the bytes are stored under `chunk_<id>`, and every other file keeps its bytes. |
| StorageNode.DownloadChunk | backend/storagenode2/app.py:41-47 | 404 exactly when the key is absent; otherwise 200 with the stored bytes. |
| StorageNode.DeleteChunk | backend/storagenode2/app.py:51-61 | 404 with no change when the file is absent. A removal that raises gives 500 with no change. Otherwise 200, that file is gone, and the rest is untouched. |
| StorageNode.StorageKeyInjective | backend/storagenode2/app.py:30 | Distinct chunk ids are stored under distinct keys. |
| StorageNode.UploadThenDownload | backend/storagenode2/app.py:30-47 | An upload whose save succeeds answers 201 and is served back byte for byte. One whose save raises answers 500, and the download answers as it did before. |
| StorageNode.DeleteThenAccess | backend/storagenode2/app.py:44-61 | After a successful delete of a stored chunk, both downloading and deleting it answer 404. A removal that raises answers 500 and the chunk is still served. Other chunks are served as before either way. |
| StorageNode.UploadsCommute | backend/storagenode2/app.py:30-37 | Uploads of two different chunk ids commute, so concurrent uploads of distinct chunks leave the same directory in any order. |
| Coordinators.ReplicateChunk | backend/main/app.py:42-53 | With no node the pool raises. Otherwise the result holds exactly the nodes whose upload succeeded, once per configured occurrence, whatever order the writes complete in. |
| Coordinators.AckedInMembers | backend/main/app.py:46-50 | A node is kept exactly when one of the completed writes is to it and that write succeeded. |
| Coordinators.AckedInPermutation | backend/main/app.py:46 | Two completion orders of the same writes keep the same nodes, with the same multiplicities. |
| Coordinators.AckedInDistinct | backend/main/app.py:45 | With distinct configured nodes, no node is listed twice. |
| Coordinators.FirstFetched | backend/main/app.py:70-74 | `None` exactly when no holder serves the chunk. Otherwise the bytes of the first holder in completion order that served it. |
| Coordinators.DownloadReplicatedChunk | backend/main/app.py:66-74 | An empty holder list raises. Otherwise the race gives `None` exactly when no holder serves the chunk, and else the first success in completion order. |
| Coordinators.RaceAgrees | backend/main/app.py:69-73 | When every holder serves the same bytes, the race returns them whatever its completion order. |
| Coordinators.ResultsIn | backend/main/app.py:91-97 | The result map has one entry per node reached, holding that node's own reply or an error entry. |
| Coordinators.DeleteReplicatedChunk | backend/main/app.py:87-98 | An empty holder list raises. Otherwise the map is keyed by exactly the holders, each with its own reply or error entry. |
| Coordinators.DeleteResultsAgree | backend/main/app.py:92-95 | The delete fan-out's result does not depend on the completion order. |
| Registry.RecordOf | backend/metadata/app.py:59-62 | A registered record takes the given fields, with `''`, 0 and 0 for a missing hash, size and chunk count. |
| Registry.RegisterFile | backend/metadata/app.py:55-78 | 400 and no change without a body or a `filename`. Otherwise 201 under the next AUTOINCREMENT id, which was unused. Every other file and all chunk rows are kept. |
| Registry.RowOf | backend/metadata/app.py:90-92 | A chunk row takes the given order, with `''` for missing holders and hash. |
| Registry.AddChunks | backend/metadata/app.py:82-97 | 400 and no change without `chunks`. Otherwise 201, with one row per input appended in order after the existing rows, and the files untouched. |
| Registry.SortByOrder | backend/metadata/app.py:127 | `ORDER BY chunk_order` gives a permutation of the file's rows that is sorted, with NULL first. |
| Registry.SortSorted | backend/metadata/app.py:128 | Rows already in order come back as they are. |
| Registry.GetFile | backend/metadata/app.py:119-140 | 404 exactly for an unknown id. Otherwise 200 with the record and exactly that file's chunk rows, sorted by order. |
| Registry.DeleteFile | backend/metadata/app.py:144-156 | 404 and no change for an unknown id. Otherwise 200: the file and all its chunk rows go, and every other file and its rows stay. |
| Registry.DeleteIsFinal | backend/metadata/app.py:147-153 | After a delete, get and delete of that id answer 404, and any other file reads back as before. |
| Registry.RowsExceptChunks | backend/metadata/app.py:152 | Dropping one file's rows removes all of its chunks and leaves every other file's chunks as they were. |
| Registry.DeleteDropsAppended | backend/metadata/app.py:144-156 | Deleting a file whose rows were all appended after rows of other files gives back exactly those earlier rows, in their order. |
| Registry.ListFiles | backend/metadata/app.py:101-115 | One listing per stored file, each with its own record, in increasing id order. |
| Registry.ListingCount | backend/metadata/app.py:104-105 | A strictly increasing listing that covers a set of ids has as many entries as the set. |
| LegacyRegistry.RegisterFile | metadata/app.py:89-105 | 400 and no change without a body or a `filename`. Otherwise 201, with the record and its defaults stored under a fresh id and nothing else changed. |
| LegacyRegistry.AddChunks | metadata/app.py:109-124 | 400 and no change without `chunks`. Otherwise 201, with one row per input appended in input order and the files untouched. |
| LegacyRegistry.GetFile | metadata/app.py:148-169 | 404 exactly for an unknown id. Otherwise the record and that file's rows, sorted by order. |
| LegacyRegistry.ListFiles | metadata/app.py:128-144 | Every stored file listed once with its record. |
| LegacyRegistry.SplitExt | metadata/app.py:183 | `os.path.splitext`: the two parts rebuild the name. The extension is non-empty exactly when the last dot comes after the last slash with some non-dot character between them; it then starts at that last dot. The extension is empty or one dot followed by no dot and no slash. |
| LegacyRegistry.CleanupTargets | metadata/app.py:186-190 | The visited paths are exactly `<base>_chunk<o><ext>` in each of the three folders, for o in 1..total_chunks. |
| LegacyRegistry.RemoveAll | metadata/app.py:191-196 | A visited file is removed unless its removal fails. Exactly the present files that fail are reported, and missing files are skipped without error. |
| LegacyRegistry.DeleteFile | metadata/app.py:173-204 | 404 and no change for an unknown id. Otherwise the chunk files are removed where possible, and the metadata is deleted regardless. The answer is 207 exactly when some removal failed, listing exactly those paths, and 200 otherwise. |
| Gateway.Lookup | backend/main/app.py:205-207 | The metadata lookup finds a file exactly for a numeric id that is registered. For a numeric id it is the registry's own `GET /files/<id>` answer; any other id finds nothing. |
| Gateway.ByOrder | backend/main/app.py:185 | `futures[order] = ...` keeps one entry per distinct order, the value of the last row with that order. |
| Gateway.KeptFromLast | backend/main/app.py:219-221 | Every kept future is the job of the last row with its order. |
| Gateway.KeptRaise | backend/main/app.py:220-221 | A kept future raises exactly when the last row of some order has a raising job. |
| Gateway.Holders | backend/main/app.py:129-131 | Each chunk's recorded holders are exactly the nodes that acknowledged it, and all of them are configured. |
| Gateway.ChunkEntries | backend/main/app.py:116-131 | Entries are numbered 1, 2, ... in chunk order, hash their own chunk, and list exactly the acknowledging nodes. |
| Gateway.RegisterUpload | backend/main/app.py:133-150 | The file is registered under a fresh id with name, hash, size and chunk count, and one row per entry is appended. |
| Gateway.StoreUpload | backend/main/app.py:113-160 | With at least one configured node, every chunk is replicated and recorded, and the reply describes what was stored. |
| Gateway.UploadFile | backend/main/app.py:101-160 | 400 exactly without a file or with an empty name. A crash exactly for an empty file or no configured node, with nothing registered. Otherwise 201, with the registry changed exactly by the file record and its entries. |
| Gateway.UploadThenGetFile | backend/main/app.py:140-150 | After an upload, the metadata service returns the uploaded record and exactly the uploaded entries, in chunk order. |
| Gateway.Collect | backend/main/app.py:186-190 | Collection gives the parts in order when every order 1..total has bytes. Otherwise it stops at the first order that does not: a 500 if its race found none, a crash if no future exists or the future raised. |
| Gateway.CollectAll | backend/main/app.py:186-192 | When order i holds part i, collecting gives exactly the parts. |
| Gateway.DownloadFile | backend/main/app.py:164-195 | 400 exactly without `file_id`. A crash for an unknown id or for `total_chunks` ≤ 0. Otherwise the file downloads exactly when, for every order 1..total_chunks, the future of the last row with that order returned bytes; the reply is then the file's own name and those bytes joined in order. A 500 names the first order whose race found no bytes, and a crash means the first order without bytes had no future or raised. |
| Gateway.CollectOutcome | backend/main/app.py:186-190 | Collecting orders 1..total gives all parts exactly when each order has bytes, and then exactly those bytes in order. Otherwise it stops at the first order without bytes: failed if that race found none, crashed if it has no future or raised. |
| Gateway.DownloadJoinsParts | backend/main/app.py:177-192 | When the last row of each order 1..total_chunks races to bytes, the reply is those bytes joined in order. |
| Gateway.DeleteTasks | backend/main/app.py:215-219 | A row's job raises exactly when its holder list is empty. Otherwise it returns each holder's own result. |
| Gateway.DeleteFile | backend/main/app.py:199-231 | 400 exactly without `file_id`, and 404 exactly for an unknown file. A crash exactly when the file has no rows or the last row of some order has no holder. Success deletes the metadata as the registry does and reports each order's results. The registry is unchanged unless it succeeds. |
| Gateway.DeleteCrashIff | backend/main/app.py:213-221 | The request crashes exactly when there are no rows, or the last row of some order has an empty holder list. |
| Gateway.DeleteResultsMatch | backend/main/app.py:220-221 | Without a crash, `delete_results` maps each order to the per-node results of the last row with that order. |
| Gateway.DeleteThenGone | backend/main/app.py:205-207 | After a successful delete, deleting again answers 404 and downloading crashes, and every other file reads back unchanged. |
| Cluster.StoreChunks | backend/storagenode2/app.py:30-37 | After a node is sent chunks 1..n of an upload, it holds each chunk it can save under that chunk's key. No file is lost, and files outside the upload, or whose save raises, keep their earlier bytes. |
| Cluster.PutViaStores | backend/main/app.py:30-39 | Against a real storage node, a chunk write is acknowledged exactly when the node is reachable and its save does not raise. |
| Cluster.AcksAreAcceptors | backend/main/app.py:42-53 | A write is acknowledged exactly by the configured nodes that are reachable and whose save does not raise. |
| Cluster.HoldersAccept | backend/main/app.py:42-53 | Every recorded holder of a chunk is a configured node that saved it. A chunk has a holder exactly when some configured node can save it, so a chunk no node could save is recorded with an empty holder list. |
| Cluster.GetViaServes | backend/main/app.py:56-63 | A chunk read from a reachable node that holds the chunk returns exactly the node's stored bytes. |
| Cluster.HolderlessFileBlocks | backend/main/app.py:180-190 | A file with a chunk row whose holder list is empty can never be downloaded: that row's race returns nothing for every transport and completion order. |
| Cluster.DelViaDeletes | backend/main/app.py:77-84 | Deleting a chunk a reachable node holds is reported as deleted exactly when the node's removal does not raise. |
| Cluster.HolderServes | backend/storagenode2/app.py:41-47 | After the upload, a configured node that could save a chunk serves that chunk's bytes. |
| Cluster.RaceServesChunk | backend/main/app.py:66-74 | When some configured node could save chunk k, the race for chunk k after the upload returns chunk k, whatever its completion order. |
| Cluster.UploadThenDownload | backend/main/app.py:101-195 | When every chunk of a non-empty file with a path-safe name has a configured node that can save it, the upload succeeds. Downloading the file from the nodes as the upload left them returns its name and exactly its bytes, for every completion order of every race. |
| Cluster.RefusedChunkFailsDownload | backend/main/app.py:113-192 | When some chunk has no configured node that can save it, the upload still succeeds and records that chunk with no holder. No download of the file can then succeed, whatever the nodes serve. |
| Cluster.HolderDeletes | backend/storagenode2/app.py:51-61 | After the upload, a configured node that saved a chunk reports it deleted exactly when its removal does not raise. Otherwise its 500 becomes an error entry. |
| Cluster.DeleteSucceeds | backend/main/app.py:213-226 | A delete succeeds for a file whose rows are numbered 1, 2, ... and each have a holder, whatever the nodes answer: a node failure is caught and only becomes an error entry. |
| Cluster.DeleteRecordsReplies | backend/main/app.py:212-221 | After a successful delete, the reply has an entry for every holder of every order. The entry is that node's message exactly when the node could remove the chunk. |
| Cluster.UploadThenDelete | backend/main/app.py:199-231 | When the configured nodes are distinct and every chunk of a non-empty file with a path-safe name has a configured node that can save it, deleting the fresh upload succeeds. Every listed holder of every chunk has an entry that reports the chunk deleted exactly when that node could remove it. The metadata service is left with exactly the files and the chunk rows it had before the upload. |
| Cluster.SameNameOverwrites | backend/main/app.py:121 | A second upload under the same file name overwrites the first upload's chunk k on every node that can save it, since chunk ids depend only on the name and the order. A download of that chunk id, which the first file's rows still name, is then served the second file's bytes. |

## Left out

- Flask routing, CORS, the `/` and `/health` endpoints, `db_view`, and start-up (environment defaults, directory creation, SQLite schema creation) are not modelled. They are framework and I/O.
- SHA-256 is the `digest` parameter of the upload. Hashing is not modelled; the model only records that each hash is the digest of the right bytes.
- JSON is not modelled. Request bodies are optional fields, so a missing key is `None`. Values of the wrong JSON type, and `null` for a present key, are not modelled.
- Reply message texts are not modelled. A node's JSON reply to a delete is its message text. The error text of an exception is not kept: it is an `ErrorEntry`.
- Flask's `<int:file_id>` converter is not modelled. The gateway's `file_id` is `NoId`, a registered-looking number (`IdNumber`) or any other text (`IdOther`, which the registry answers with 404).
- `created_at` is not modelled: it is a clock reading.
- `backend/nodfs/app.py` is not part of this model.
- Node requests are deterministic transport functions of the node and the request. Timeouts and network failures are the `Raised` outcome of the transport.
- Coordinators.DeleteResultsAgree justifies taking the delete fan-out in configuration order. The completion order of each delete is therefore not a parameter of `Gateway.DeleteFile`. This holds only because the transport is a function of the node and the request: two requests to the same node, as a node listed twice would get, can answer differently in the source (see Cluster.UploadThenDelete below).
- Cluster.StoreChunks applies one upload's concurrent chunk writes in chunk order. `StorageNode.UploadsCommute` justifies this, since chunk ids of one upload are distinct (`Text.ChunkIdInjective`). A node listed twice in the configuration receives the same bytes twice. This is modelled as one write.
- Cluster.UploadThenDelete does not follow the node stores after the delete. Per node, the emptying is `StorageNode.DeleteThenAccess`.
- Cluster.UploadThenDownload and Cluster.UploadThenDelete assume no chunk rows are already filed under the id the registry hands out next. Rows can be added for any id, including an unregistered one, and such rows would be read back with the new file.
- Gateway.DeleteFile does not model the node deletes of a crashed request. Every row's `delete_replicated_chunk` is submitted before the first `.result()` raises, and the executor waits for all of them (backend/main/app.py:213-221). So when a kept row has no holder, the other rows' chunks are already gone from their nodes while the metadata stays. The file is still listed, and a download that worked before (when the holderless row's order lies outside 1..total_chunks) fails afterwards. The contract states only that the registry is unchanged.
- Gateway.DeleteFile never gives `MetadataDeleteFailed`. The metadata calls are in-process registry transitions, and a delete of a file just found cannot fail. Transport failures between the gateway and the metadata service are not modelled.
- Gateway.UploadFile does not model a failing metadata request (`raise_for_status` on registration). As above, the metadata service is called in-process.
- Registry.ListFiles lists files in increasing id order. This is the order of a plain SQLite scan of a rowid table, which SQL does not promise.
- Registry.SortByOrder is one stable sort. SQLite may order rows with equal `chunk_order` differently. Only the last row of each order matters to the gateway.
- LegacyRegistry.DeleteFile models the three folders as one `Disk` value: a set of present paths and a set whose removal fails. Path joining with `UPLOAD_ROOT` and the error texts are not modelled.
- Gateway.DownloadJoinsParts states one direction only: served parts give the joined bytes. The converse and the failure cases are stated by Gateway.DownloadFile.
- Text.ParseNodeList: its own contract states that every name is well formed. Which pieces it keeps, and in what order, is stated by Text.ParseNodeListComma and Text.ParseNodeListPiece.
- Cluster.UploadThenDownload requires a path-safe file name: no `/`, `#`, `?` or `%`. The gateway puts chunk ids into the download and delete URLs unescaped (backend/main/app.py lines 58 and 79). Other names reach the node as a different route or a different id. The transports hand the id over verbatim, which is faithful only for path-safe names.
- Cluster.UploadThenDelete requires a path-safe file name, for the same reason.
- Cluster.UploadThenDelete requires distinct configured nodes. A node configured twice is listed twice as a holder, so `delete_replicated_chunk` sends it two DELETEs of the same chunk (backend/main/app.py:89-95). The second answers 404, or 500 when the removals race, and whichever request finishes last supplies the node's entry. The model's delete transport answers every request from the directories as the upload left them, which does not capture this. No promise is made about the entries for a node configured twice.
- Cluster.UploadThenDelete does not restore the registry's id counter: the upload advanced it, so the next file gets a different id than it would have before.
- StorageNode.UploadChunk models a save that raises as one that writes nothing. A partial write that leaves a truncated file is not modelled. Which file names fail to save or remove is a fixed part of the node state.
- StorageNode.DownloadChunk does not model a read that fails after the existence check.

=== FILE: base.dfy ===
/**
  Shared vocabulary of the model: bytes, optional values, calls that may
  raise, byte-string concatenation and permutations of task indices.
 */
module Base {

  /** One octet of a file or chunk. */
  newtype Byte = b: int | 0 <= b < 256

  type Bytes = seq<Byte>

  /** A value that may be absent (a missing JSON key, Python's `None`). */
  datatype Option<T> = None | Some(value: T) {
    /** The value, or `default` when absent (`dict.get(key, default)`). */
    function GetOr(default: T): T {
      if Some? then value else default
    }
  }

  /** The result of a call that either returns or raises an exception
      that its caller does not catch. */
  datatype Attempt<T> = Returned(value: T) | Raised

  /** Byte strings joined in order, as `b''.join(parts)` does. */
  function Concat(parts: seq<Bytes>): Bytes {
    if |parts| == 0 then [] else parts[0] + Concat(parts[1..])
  }

  lemma {:induction false} ConcatAppend(a: seq<Bytes>, b: seq<Bytes>)
    ensures Concat(a + b) == Concat(a) + Concat(b)
  {
    if |a| == 0 {
      assert a + b == b;
    } else {
      assert (a + b)[1..] == a[1..] + b;
      ConcatAppend(a[1..], b);
    }
  }

  /** The indices 0, 1, ..., n-1 of n submitted jobs, in submission order. */
  function Indices(n: nat): (r: seq<nat>)
    ensures |r| == n
    ensures forall i :: 0 <= i < n ==> r[i] == i
  {
    if n == 0 then [] else Indices(n - 1) + [n - 1]
  }

  /** `p` lists the job indices 0..n-1, each exactly once: the order in
      which n concurrently submitted tasks complete. */
  predicate IsPermutation(p: seq<nat>, n: nat) {
    multiset(p) == multiset(Indices(n))
  }

  /** Every entry of `order` names one of n tasks. */
  predicate InRange(order: seq<nat>, n: nat) {
    forall j :: 0 <= j < |order| ==> order[j] < n
  }

  /** A completion order has one entry per task, each naming a task, and
      every task appears in it. */
  lemma PermutationFacts(p: seq<nat>, n: nat)
    requires IsPermutation(p, n)
    ensures |p| == n
    ensures InRange(p, n)
    ensures forall i :: 0 <= i < n ==> i in p
  {
    var ind := Indices(n);
    assert |multiset(p)| == |multiset(ind)|;
    forall j | 0 <= j < |p|
      ensures p[j] < n
    {
      assert p[j] in multiset(p);
      assert p[j] in multiset(ind);
      assert p[j] in ind;
    }
    forall i | 0 <= i < n
      ensures i in p
    {
      assert ind[i] == i;
      assert i in multiset(ind);
      assert i in multiset(p);
    }
  }

  /** Where a task sits in a completion order. */
  lemma PositionOf(p: seq<nat>, n: nat, i: nat) returns (j: nat)
    requires IsPermutation(p, n)
    requires i < n
    ensures j < |p| && p[j] == i
  {
    PermutationFacts(p, n);
    assert i in p;
    j :| 0 <= j < |p| && p[j] == i;
  }
}

=== FILE: chunker.dfy ===
/**
  Splitting a file's bytes into fixed-size chunks (`split_file`).
 */
module Chunker {
  import opened Base

  /** The chunk size the gateway uses: 4 MiB. */
  const DefaultChunkSize: nat := 4 * 1024 * 1024

  function Min(a: int, b: int): int {
    if a <= b then a else b
  }

  lemma MulStep(k: int, c: int)
    ensures (k - 1) * c + c == k * c
  {
  }

  /** `[data[i:i+size] for i in range(0, len(data), size)]`: ceil(L/size)
      chunks, i.e. the least count whose total capacity covers the data
      (none for empty data); every chunk is full except possibly the last,
      which holds 1..size bytes. */
  function SplitFile(data: Bytes, size: nat): (chunks: seq<Bytes>)
    requires size > 0
    ensures (|chunks| - 1) * size < |data| <= |chunks| * size
    ensures forall k :: 0 <= k < |chunks| ==> 1 <= |chunks[k]| <= size
    ensures forall k :: 0 <= k < |chunks| - 1 ==> |chunks[k]| == size
    decreases |data|
  {
    if |data| == 0 then []
    else if |data| <= size then
      [data]
    else
      var rest := SplitFile(data[size..], size);
      MulStep(|rest| + 1, size);
      MulStep(|rest|, size);
      [data[..size]] + rest
  }

  /** Concatenated in order, the chunks give back the data. */
  lemma {:induction false} SplitFileJoins(data: Bytes, size: nat)
    requires size > 0
    ensures Concat(SplitFile(data, size)) == data
    decreases |data|
  {
    if |data| > size {
      var rest := SplitFile(data[size..], size);
      SplitFileJoins(data[size..], size);
      assert ([data[..size]] + rest)[1..] == rest;
      assert data[..size] + data[size..] == data;
    } else if |data| > 0 {
      assert SplitFile(data, size)[1..] == [];
      assert data + [] == data;
    }
  }

  /** Chunk k is exactly the slice `data[k*size : k*size+size]` that the
      source's comprehension takes. */
  lemma SplitFileSlices(data: Bytes, size: nat, k: nat)
    requires size > 0
    requires k < |SplitFile(data, size)|
    ensures k * size < |data|
    ensures SplitFile(data, size)[k] == data[k * size .. Min(k * size + size, |data|)]
  {
    ChunkAt(data, size, k);
    OffsetIsProduct(k, size);
  }

  /** Where chunk k starts, counted without multiplying. */
  function Offset(k: nat, size: nat): nat {
    if k == 0 then 0 else Offset(k - 1, size) + size
  }

  lemma {:induction false} OffsetIsProduct(k: nat, size: nat)
    ensures Offset(k, size) == k * size
  {
    if k > 0 {
      OffsetIsProduct(k - 1, size);
      MulStep(k, size);
    }
  }

  /** Chunk k is the slice of the data from its offset, one chunk size
      long or up to the end. */
  lemma {:induction false} ChunkAt(data: Bytes, size: nat, k: nat)
    requires size > 0
    requires k < |SplitFile(data, size)|
    ensures Offset(k, size) < |data|
    ensures SplitFile(data, size)[k] == data[Offset(k, size) .. Min(Offset(k, size) + size, |data|)]
    decreases |data|, 1
  {
    if k > 0 {
      LaterChunkAt(data, size, k);
    } else {
      SplitFileHead(data, size);
    }
  }

  /** The step of `ChunkAt` past the first chunk. */
  lemma {:induction false} LaterChunkAt(data: Bytes, size: nat, k: nat)
    requires size > 0
    requires 0 < k < |SplitFile(data, size)|
    ensures Offset(k, size) < |data|
    ensures SplitFile(data, size)[k] == data[Offset(k, size) .. Min(Offset(k, size) + size, |data|)]
    decreases |data|, 0
  {
    SplitFileTail(data, size, k);
    var rest := data[size..];
    ChunkAt(rest, size, k - 1);
    var lo := Offset(k - 1, size);
    assert SplitFile(data, size)[k] == rest[lo .. Min(lo + size, |data| - size)];
    ChunkStep(data, size, lo, SplitFile(data, size)[k]);
  }

  /** Past the first, chunk k of the data is chunk k-1 of what follows
      the first chunk. */
  lemma SplitFileTail(data: Bytes, size: nat, k: nat)
    requires size > 0
    requires 0 < k < |SplitFile(data, size)|
    ensures size < |data|
    ensures SplitFile(data, size)[k] == SplitFile(data[size..], size)[k - 1]
  {
    assert SplitFile(data, size) == [data[..size]] + SplitFile(data[size..], size);
  }

  /** The first chunk is the data up to the chunk size. */
  lemma SplitFileHead(data: Bytes, size: nat)
    requires size > 0
    requires 0 < |SplitFile(data, size)|
    ensures 0 < |data|
    ensures SplitFile(data, size)[0] == data[..Min(size, |data|)]
  {
  }

  /** A slice of what follows the first chunk, shifted back by one chunk
      size, is a slice of the data. */
  lemma ChunkStep(data: Bytes, size: nat, lo: nat, piece: Bytes)
    requires 0 < size < |data|
    requires lo < |data| - size
    requires piece == data[size..][lo .. Min(lo + size, |data| - size)]
    ensures piece == data[lo + size .. Min(lo + size + size, |data|)]
  {
    SliceShift(data, size, lo, Min(lo + size, |data| - size));
  }

  lemma SliceShift(data: Bytes, s: nat, lo: nat, hi: nat)
    requires s <= |data|
    requires lo <= hi <= |data| - s
    ensures data[s..][lo..hi] == data[lo + s .. hi + s]
  {
  }

  /** Non-empty data yields at least one chunk. */
  lemma SplitFileNonEmpty(data: Bytes, size: nat)
    requires size > 0
    ensures |SplitFile(data, size)| == 0 <==> |data| == 0
  {
  }

  /** The two-sided bound of `SplitFile` pins the count down to
      ceil(|data| / size) as integer division writes it. */
  lemma {:induction false} ChunkCountIsCeiling(data: Bytes, size: nat)
    requires size > 0
    ensures |SplitFile(data, size)| == (|data| + size - 1) / size
  {
    var n := |SplitFile(data, size)|;
    var m := |data| + size - 1;
    assert (n - 1) * size < |data| <= n * size;
    MulStep(n, size);
    assert n * size <= m < n * size + size;
    DivUnique(m, size, n);
  }

  lemma DivUnique(m: int, c: int, q: int)
    requires c > 0
    requires q * c <= m < q * c + c
    ensures m / c == q
  {
    var q', r' := m / c, m % c;
    assert m == q' * c + r' && 0 <= r' < c;
    assert (q' - q) * c == q' * c - q * c by { MulDist(q', q, c); }
    assert -c < (q' - q) * c < c;
    SmallMultiple(q' - q, c);
  }

  lemma MulDist(a: int, b: int, c: int)
    ensures (a - b) * c == a * c - b * c
  {
  }

  lemma SmallMultiple(d: int, c: int)
    requires c > 0
    requires -c < d * c < c
    ensures d == 0
  {
    MulAwayFromZero(d, c);
  }

  lemma MulAwayFromZero(d: int, c: int)
    requires c >= 0
    ensures d >= 1 ==> d * c >= c
    ensures d <= -1 ==> d * c <= -c
  {
    if d >= 1 {
      MulMonotone(1, d, c);
    } else if d <= -1 {
      MulMonotone(1, -d, c);
    }
  }

  lemma MulMonotone(a: int, b: int, c: int)
    requires 0 <= a <= b
    requires c >= 0
    ensures a * c <= b * c
  {
  }
}

=== FILE: cluster.dfy ===
/**
  The gateway wired to real storage nodes (backend/storagenode2/app.py):
  each node name that answers maps to the chunk directory of that node,
  and the transport functions the gateway is parameterised by are the
  node endpoints themselves. A node name with no directory is
  unreachable: every request to it raises in the transport.

  The gateway writes chunk ids into request paths without escaping them
  (backend/main/app.py lines 58 and 79). The transports below hand the
  node the id as given, which is what the node's route receives only for
  a `PathSafe` id; the end-to-end lemmas are stated for such file names.
 */
module Cluster {
  import opened Base
  import Text
  import Chunker
  import StorageNode
  import Registry
  import opened Coordinators
  import Gateway

  /** The reachable nodes and the chunk directory of each. */
  type Nodes = map<Node, StorageNode.State>

  /** No character a URL path treats specially: '/' splits the route,
      '#' and '?' end the path and '%' starts an escape. */
  predicate PathSafe(s: string) {
    '/' !in s && '#' !in s && '?' !in s && '%' !in s
  }

  /** `requests.post(f"{node}/upload_chunk", ...)` with the chunk part and
      the `chunk_id` field always present. */
  function PutVia(c: Nodes): (Node, string, Bytes) -> PutOutcome {
    (n: Node, chunkId: string, data: Bytes) =>
      if n in c then PutResponse(StorageNode.UploadChunk(c[n], Some(data), Some(chunkId)).1.status)
      else PutRaised
  }

  /** `requests.get(f"{node}/download_chunk/{chunk_id}")`: the status and,
      for a served chunk, its bytes. */
  function GetVia(c: Nodes): (Node, string) -> GetOutcome {
    (n: Node, chunkId: string) =>
      if n in c then
        var r := StorageNode.DownloadChunk(c[n], chunkId);
        GetResponse(r.status, if r.body.Payload? then r.body.bytes else [])
      else GetRaised
  }

  /** `requests.delete(f"{node}/delete_chunk/{chunk_id}")`: the status and
      the JSON message. */
  function DelVia(c: Nodes): (Node, string) -> DelOutcome {
    (n: Node, chunkId: string) =>
      if n in c then
        var r := StorageNode.DeleteChunk(c[n], chunkId).1;
        DelResponse(r.status, if r.body.Message? then Some(r.body.text) else None)
      else DelRaised
  }

  /** Node `x` is reachable and can save the chunk file of `chunkId`. */
  predicate Accepts(c: Nodes, x: Node, chunkId: string) {
    x in c && StorageNode.StorageKey(chunkId) !in c[x].saveFails
  }

  /** Node `x` is reachable and can remove the chunk file of `chunkId`. */
  predicate Removes(c: Nodes, x: Node, chunkId: string) {
    x in c && StorageNode.StorageKey(chunkId) !in c[x].removeFails
  }

  /** Some configured node accepts chunk `order` of `name`. */
  predicate ChunkHasAcceptor(c: Nodes, cfg: Gateway.Config, name: string, order: nat) {
    exists x :: x in cfg.nodes && Accepts(c, x, Text.ChunkId(name, Some(order)))
  }

  /** Every chunk 1..count of `name` has a configured node that accepts it. */
  predicate EveryChunkAccepted(c: Nodes, cfg: Gateway.Config, name: string, count: nat) {
    forall order :: 1 <= order <= count ==> ChunkHasAcceptor(c, cfg, name, order)
  }

  /** The key chunk order `order` of `name` is kept under on a node. */
  function ChunkKey(name: string, order: nat): string {
    StorageNode.StorageKey(Text.ChunkId(name, Some(order)))
  }

  lemma ChunkKeyInjective(name: string, a: nat, b: nat)
    requires ChunkKey(name, a) == ChunkKey(name, b)
    ensures a == b
  {
    StorageNode.StorageKeyInjective(Text.ChunkId(name, Some(a)), Text.ChunkId(name, Some(b)));
    Text.ChunkIdInjective(name, Some(a), Some(b));
  }

  /** The chunk ids of an upload: one of orders 1..count. */
  predicate IsChunkKey(name: string, count: nat, key: string) {
    exists order :: 1 <= order <= count && key == ChunkKey(name, order)
  }

  /** `st` is `base` after it was sent chunks 1..|chunks| of `name`: every
      chunk it can save is there, the failing sets are as they were, no
      file was lost, and every other file keeps its bytes. */
  predicate HoldsChunks(base: StorageNode.State, name: string, chunks: seq<Bytes>, st: StorageNode.State) {
    && st.saveFails == base.saveFails && st.removeFails == base.removeFails
    && (forall order :: 1 <= order <= |chunks| && ChunkKey(name, order) !in base.saveFails ==>
          ChunkKey(name, order) in st.files && st.files[ChunkKey(name, order)] == chunks[order - 1])
    && (forall key :: key in base.files ==> key in st.files)
    && (forall key :: key in st.files && (!IsChunkKey(name, |chunks|, key) || key in base.saveFails) ==>
          key in base.files && st.files[key] == base.files[key])
  }

  /** One node's directory after it was sent chunks 1..|chunks| of `name`.
      Chunks of one upload have distinct ids, so their writes commute
      (`StorageNode.UploadsCommute`) and writing them in chunk order gives
      the directory any interleaving of the concurrent uploads gives. */
  function StoreChunks(node: StorageNode.State, name: string, chunks: seq<Bytes>): (r: StorageNode.State)
    ensures HoldsChunks(node, name, chunks, r)
  {
    if |chunks| == 0 then node
    else
      var n := |chunks|;
      var before := StoreChunks(node, name, chunks[..n - 1]);
      HoldsOneMore(node, name, chunks, before);
      StorageNode.UploadChunk(before, Some(chunks[n - 1]), Some(Text.ChunkId(name, Some(n)))).0
  }

  /** Sending the last chunk to a directory holding the others. */
  lemma HoldsOneMore(base: StorageNode.State, name: string, chunks: seq<Bytes>, before: StorageNode.State)
    requires |chunks| > 0
    requires HoldsChunks(base, name, chunks[..|chunks| - 1], before)
    ensures HoldsChunks(base, name, chunks,
      StorageNode.UploadChunk(before, Some(chunks[|chunks| - 1]), Some(Text.ChunkId(name, Some(|chunks|)))).0)
  {
    var n := |chunks|;
    var key := ChunkKey(name, n);
    var r := StorageNode.UploadChunk(before, Some(chunks[n - 1]), Some(Text.ChunkId(name, Some(n)))).0;
    if key in base.saveFails {
      assert r == before;
    } else {
      assert r.files == before.files[key := chunks[n - 1]];
    }
    forall order | 1 <= order <= n && ChunkKey(name, order) !in base.saveFails
      ensures ChunkKey(name, order) in r.files && r.files[ChunkKey(name, order)] == chunks[order - 1]
    {
      if order < n {
        if ChunkKey(name, order) == key {
          ChunkKeyInjective(name, order, n);
        }
        assert chunks[..n - 1][order - 1] == chunks[order - 1];
      }
    }
    assert IsChunkKey(name, n, key);
    forall k | IsChunkKey(name, n - 1, k)
      ensures IsChunkKey(name, n, k)
    {
      var o :| 1 <= o <= n - 1 && k == ChunkKey(name, o);
    }
  }

  /** The nodes after an upload of `chunks` of `name`: every reachable
      configured node was sent all of them; nodes outside the
      configuration are not written to. */
  function AfterUpload(c: Nodes, cfg: Gateway.Config, name: string, chunks: seq<Bytes>): (c': Nodes)
    ensures c'.Keys == c.Keys
  {
    map n | n in c :: if n in cfg.nodes then StoreChunks(c[n], name, chunks) else c[n]
  }

  /** A node acknowledges a write with a non-empty id exactly when it is
      reachable and can save the chunk file. */
  lemma PutViaStores(c: Nodes, x: Node, chunkId: string, data: Bytes)
    requires chunkId != ""
    ensures Stored(PutVia(c)(x, chunkId, data)) <==> Accepts(c, x, chunkId)
  {
    if x in c {
      var status := StorageNode.UploadChunk(c[x], Some(data), Some(chunkId)).1.status;
      assert status == 201 || status == 500;
      assert status == 201 <==> Accepts(c, x, chunkId);
    }
  }

  /** A reachable node serves what its directory keeps under the id. */
  lemma GetViaServes(c: Nodes, x: Node, chunkId: string)
    requires x in c && StorageNode.StorageKey(chunkId) in c[x].files
    ensures Fetched(GetVia(c)(x, chunkId)) == Some(c[x].files[StorageNode.StorageKey(chunkId)])
  {
    assert StorageNode.DownloadChunk(c[x], chunkId)
        == StorageNode.Response(200, StorageNode.Payload(c[x].files[StorageNode.StorageKey(chunkId)]));
  }

  /** A configured node acknowledges a chunk write exactly when it is
      reachable and its save does not raise. */
  lemma AcksAreAcceptors(c: Nodes, nodes: seq<Node>, chunkId: string, data: Bytes)
    requires chunkId != ""
    ensures forall x :: x in AckedNodes(nodes, chunkId, data, PutVia(c)) <==> x in nodes && Accepts(c, x, chunkId)
  {
    var order := Indices(|nodes|);
    AckedInMembers(nodes, chunkId, data, PutVia(c), order);
    forall x | x in nodes
      ensures Stored(PutVia(c)(x, chunkId, data)) <==> Accepts(c, x, chunkId)
    {
      PutViaStores(c, x, chunkId, data);
    }
    forall x | x in nodes && Accepts(c, x, chunkId)
      ensures x in AckedNodes(nodes, chunkId, data, PutVia(c))
    {
      var i :| 0 <= i < |nodes| && nodes[i] == x;
      assert nodes[order[i]] == x;
    }
  }

  /** After the upload, a configured node that accepts chunk k serves
      exactly chunk k. */
  lemma HolderServes(c: Nodes, cfg: Gateway.Config, name: string, chunks: seq<Bytes>, k: nat, x: Node)
    requires k < |chunks|
    requires x in cfg.nodes && Accepts(c, x, Text.ChunkId(name, Some(k + 1)))
    ensures Fetched(GetVia(AfterUpload(c, cfg, name, chunks))(x, Text.ChunkId(name, Some(k + 1)))) == Some(chunks[k])
  {
    var c' := AfterUpload(c, cfg, name, chunks);
    assert c'[x] == StoreChunks(c[x], name, chunks);
    assert ChunkKey(name, k + 1) in c'[x].files && c'[x].files[ChunkKey(name, k + 1)] == chunks[k];
    GetViaServes(c', x, Text.ChunkId(name, Some(k + 1)));
  }

  /** The holders recorded for a chunk are configured nodes that accept
      it, and there is at least one exactly when some configured node
      accepts it: a chunk no node could save is recorded with no holder. */
  lemma HoldersAccept(c: Nodes, cfg: Gateway.Config, chunkId: string, data: Bytes, holders: string)
    requires chunkId != ""
    requires multiset(Text.ParseNodeList(holders)) == multiset(AckedNodes(cfg.nodes, chunkId, data, PutVia(c)))
    ensures |Text.ParseNodeList(holders)| > 0 <==> exists x :: x in cfg.nodes && Accepts(c, x, chunkId)
    ensures forall x :: x in Text.ParseNodeList(holders) ==> x in cfg.nodes && Accepts(c, x, chunkId)
  {
    var nodes := Text.ParseNodeList(holders);
    var acked := AckedNodes(cfg.nodes, chunkId, data, PutVia(c));
    AcksAreAcceptors(c, cfg.nodes, chunkId, data);
    if exists x :: x in cfg.nodes && Accepts(c, x, chunkId) {
      var x0 :| x0 in cfg.nodes && Accepts(c, x0, chunkId);
      assert x0 in multiset(acked);
    }
    if |nodes| > 0 {
      assert nodes[0] in multiset(nodes);
      assert nodes[0] in acked;
    }
    forall x | x in nodes
      ensures x in cfg.nodes && Accepts(c, x, chunkId)
    {
      assert x in multiset(nodes);
      assert x in acked;
    }
  }

  /** The race for chunk k after the upload returns chunk k, whatever the
      completion order, when some configured node accepted it. */
  lemma RaceServesChunk(c: Nodes, cfg: Gateway.Config, name: string, chunks: seq<Bytes>, k: nat,
                        holders: string, race: seq<nat>)
    requires k < |chunks|
    requires ChunkHasAcceptor(c, cfg, name, k + 1)
    requires multiset(Text.ParseNodeList(holders))
          == multiset(AckedNodes(cfg.nodes, Text.ChunkId(name, Some(k + 1)), chunks[k], PutVia(c)))
    requires IsPermutation(race, |Text.ParseNodeList(holders)|)
    ensures DownloadReplicatedChunk(holders, Text.ChunkId(name, Some(k + 1)), GetVia(AfterUpload(c, cfg, name, chunks)), race)
         == Returned(Some(chunks[k]))
  {
    var chunkId := Text.ChunkId(name, Some(k + 1));
    HoldersAccept(c, cfg, chunkId, chunks[k], holders);
    forall x | x in Text.ParseNodeList(holders)
      ensures Fetched(GetVia(AfterUpload(c, cfg, name, chunks))(x, chunkId)) == Some(chunks[k])
    {
      HolderServes(c, cfg, name, chunks, k, x);
    }
    RaceAgrees(holders, chunkId, GetVia(AfterUpload(c, cfg, name, chunks)), race, chunks[k]);
  }

  /** A file with at least one chunk and a chunk acceptor for each has a
      configured node. */
  lemma SomeConfiguredNode(c: Nodes, cfg: Gateway.Config, f: Gateway.FilePart)
    requires |f.data| > 0
    requires EveryChunkAccepted(c, cfg, f.filename, |Gateway.FileChunks(f.data)|)
    ensures |Gateway.FileChunks(f.data)| > 0 && |cfg.nodes| > 0
  {
    Chunker.SplitFileNonEmpty(f.data, Chunker.DefaultChunkSize);
    assert ChunkHasAcceptor(c, cfg, f.filename, 1);
    var x0 :| x0 in cfg.nodes && Accepts(c, x0, Text.ChunkId(f.filename, Some(1)));
  }

  /** Upload then download: when every chunk of a non-empty file with a
      path-safe name has a configured node that can save it, the upload
      succeeds, and downloading the file again from the nodes as the
      upload left them returns its name and exactly its bytes, whatever
      the completion order of any fan-out (provided no chunk rows were
      already filed under the fresh id). */
  lemma {:induction false} UploadThenDownload(cfg: Gateway.Config, c: Nodes, reg: Registry.State, f: Gateway.FilePart,
                                              digest: Bytes -> string, completions: seq<seq<nat>>)
    requires Gateway.ValidConfig(cfg)
    requires Registry.Valid(reg)
    requires Registry.ChunksOf(reg.chunks, reg.nextId) == []
    requires f.filename != "" && PathSafe(f.filename) && |f.data| > 0
    requires EveryChunkAccepted(c, cfg, f.filename, |Gateway.FileChunks(f.data)|)
    requires Gateway.UploadOrdersFit(cfg, Some(f), completions)
    ensures var (reg', r) := Gateway.UploadFile(cfg, reg, Some(f), digest, PutVia(c), completions);
      && r.Uploaded?
      && forall races :: Gateway.DownloadRacesFit(reg', Gateway.IdNumber(r.fileId), races) ==>
           Gateway.DownloadFile(reg', Gateway.IdNumber(r.fileId), GetVia(AfterUpload(c, cfg, f.filename, Gateway.FileChunks(f.data))), races)
           == Gateway.Downloaded(f.filename, f.data)
  {
    var put := PutVia(c);
    var (reg', r) := Gateway.UploadFile(cfg, reg, Some(f), digest, put, completions);
    var chunks := Gateway.FileChunks(f.data);
    SomeConfiguredNode(c, cfg, f);
    assert r.Uploaded?;
    Gateway.UploadThenGetFile(cfg, reg, f, digest, put, completions);
    var id := r.fileId;
    var entries := r.chunkMetadata;
    var rows := Registry.GetFile(reg', id).chunks;
    Chunker.SplitFileJoins(f.data, Chunker.DefaultChunkSize);
    var get := GetVia(AfterUpload(c, cfg, f.filename, chunks));
    UploadHoldersServe(cfg, c, reg, f, digest, completions);
    EntryRowsServe(rows, entries, f.filename, get, chunks);
    forall races | Gateway.DownloadRacesFit(reg', Gateway.IdNumber(id), races)
      ensures Gateway.DownloadFile(reg', Gateway.IdNumber(id), get, races) == Gateway.Downloaded(f.filename, f.data)
    {
      forall k | 0 <= k < |chunks|
        ensures Gateway.Served(rows, f.filename, get, races, chunks, k)
      {
        RowServed(rows, f.filename, get, races, chunks, k);
      }
      Gateway.DownloadJoinsParts(reg', id, get, races, chunks);
    }
  }

  /** No download of stored file `id` succeeds, whatever the nodes serve
      and whatever the completion order of its races. */
  ghost predicate NeverDownloads(reg: Registry.State, id: nat) {
    forall get, races :: Gateway.DownloadRacesFit(reg, Gateway.IdNumber(id), races) ==>
      !Gateway.DownloadFile(reg, Gateway.IdNumber(id), get, races).Downloaded?
  }

  /** Stored file `id` has rows numbered 1, 2, ..., and row k, within the
      recorded chunk count, lists no holder. */
  predicate HolderlessRow(reg: Registry.State, id: nat, k: nat) {
    && id in reg.files
    && k < |Registry.GetFile(reg, id).chunks| && k < reg.files[id].totalChunks
    && (forall j :: 0 <= j < |Registry.GetFile(reg, id).chunks| ==> Registry.GetFile(reg, id).chunks[j].order == Some(j + 1))
    && |Text.ParseNodeList(Registry.GetFile(reg, id).chunks[k].storageNodes)| == 0
  }

  /** No download of a stored file one of whose numbered rows lists no
      holder succeeds. */
  lemma HolderlessFileBlocks(reg: Registry.State, id: nat, k: nat)
    ensures HolderlessRow(reg, id, k) ==> NeverDownloads(reg, id)
  {
    if HolderlessRow(reg, id, k) {
      forall get, races | Gateway.DownloadRacesFit(reg, Gateway.IdNumber(id), races)
        ensures !Gateway.DownloadFile(reg, Gateway.IdNumber(id), get, races).Downloaded?
      {
        HolderlessRowBlocks(reg, id, k, get, races);
      }
    }
  }

  /** The converse: when some chunk of the file has no configured node
      that can save it, the upload still succeeds and records that
      chunk's row with no holder, and then no download of the file can
      succeed, whatever the nodes serve: the race for that chunk has no
      holder and raises. */
  lemma RefusedChunkFailsDownload(cfg: Gateway.Config, c: Nodes, reg: Registry.State, f: Gateway.FilePart,
                                  digest: Bytes -> string, completions: seq<seq<nat>>, order: nat)
    requires Gateway.ValidConfig(cfg)
    requires Registry.Valid(reg)
    requires Registry.ChunksOf(reg.chunks, reg.nextId) == []
    requires f.filename != "" && |f.data| > 0 && |cfg.nodes| > 0
    requires Gateway.UploadOrdersFit(cfg, Some(f), completions)
    requires 1 <= order <= |Gateway.FileChunks(f.data)|
    requires !ChunkHasAcceptor(c, cfg, f.filename, order)
    ensures var up := Gateway.UploadFile(cfg, reg, Some(f), digest, PutVia(c), completions);
      up.1.Uploaded? && HolderlessRow(up.0, up.1.fileId, order - 1) && NeverDownloads(up.0, up.1.fileId)
  {
    RefusedRow(cfg, c, reg, f, digest, completions, order);
    var up := Gateway.UploadFile(cfg, reg, Some(f), digest, PutVia(c), completions);
    HolderlessFileBlocks(up.0, up.1.fileId, order - 1);
  }

  /** The upload succeeds and records the refused chunk with no holder. */
  lemma RefusedRow(cfg: Gateway.Config, c: Nodes, reg: Registry.State, f: Gateway.FilePart,
                   digest: Bytes -> string, completions: seq<seq<nat>>, order: nat)
    requires Gateway.ValidConfig(cfg)
    requires Registry.Valid(reg)
    requires Registry.ChunksOf(reg.chunks, reg.nextId) == []
    requires f.filename != "" && |f.data| > 0 && |cfg.nodes| > 0
    requires Gateway.UploadOrdersFit(cfg, Some(f), completions)
    requires 1 <= order <= |Gateway.FileChunks(f.data)|
    requires !ChunkHasAcceptor(c, cfg, f.filename, order)
    ensures var up := Gateway.UploadFile(cfg, reg, Some(f), digest, PutVia(c), completions);
      up.1.Uploaded? && HolderlessRow(up.0, up.1.fileId, order - 1)
  {
    var put := PutVia(c);
    var (reg', r) := Gateway.UploadFile(cfg, reg, Some(f), digest, put, completions);
    assert r.Uploaded?;
    Gateway.UploadThenGetFile(cfg, reg, f, digest, put, completions);
    RecordedRefusedRow(cfg, c, reg, f, digest, reg', r, order);
  }

  /** The same, from what the upload recorded. */
  lemma RecordedRefusedRow(cfg: Gateway.Config, c: Nodes, reg: Registry.State, f: Gateway.FilePart,
                           digest: Bytes -> string, reg': Registry.State, r: Gateway.UploadReply, order: nat)
    requires r.Uploaded? && Gateway.UploadRecorded(cfg, reg, f, digest, PutVia(c), reg', r)
    requires Registry.GetFile(reg', r.fileId).chunks
          == seq(|r.chunkMetadata|, j requires 0 <= j < |r.chunkMetadata| => Gateway.EntryChunk(r.chunkMetadata[j]))
    requires 1 <= order <= |Gateway.FileChunks(f.data)|
    requires !ChunkHasAcceptor(c, cfg, f.filename, order)
    ensures HolderlessRow(reg', r.fileId, order - 1)
  {
    var chunks := Gateway.FileChunks(f.data);
    var entries := r.chunkMetadata;
    var rows := Registry.GetFile(reg', r.fileId).chunks;
    HoldersAccept(c, cfg, Text.ChunkId(f.filename, Some(order)), chunks[order - 1], entries[order - 1].storageNodes);
    EntryRowsNumbered(rows, entries);
  }

  /** Rows stored from entries numbered 1, 2, ... are those entries. */
  lemma EntryRowsNumbered(rows: seq<Registry.Chunk>, entries: seq<Gateway.ChunkEntry>)
    requires rows == seq(|entries|, j requires 0 <= j < |entries| => Gateway.EntryChunk(entries[j]))
    requires forall j :: 0 <= j < |entries| ==> entries[j].order == j + 1
    ensures |rows| == |entries|
    ensures forall j :: 0 <= j < |rows| ==> rows[j].order == Some(j + 1) && rows[j].storageNodes == entries[j].storageNodes
  {
  }

  /** A stored file one of whose numbered rows lists no holder cannot be
      downloaded: the race for that row's order raises. */
  lemma HolderlessRowBlocks(reg: Registry.State, id: nat, k: nat, get: (Node, string) -> GetOutcome, races: seq<seq<nat>>)
    requires HolderlessRow(reg, id, k)
    requires Gateway.RacesFit(Registry.GetFile(reg, id).chunks, races)
    ensures !Gateway.DownloadFile(reg, Gateway.IdNumber(id), get, races).Downloaded?
  {
    var rows := Registry.GetFile(reg, id).chunks;
    var futures := Gateway.Futures(reg, id, get, races);
    HolderlessFuture(rows, reg.files[id].filename, get, races, k);
    assert !Gateway.GoodBelow(futures, reg.files[id].totalChunks + 1) by {
      assert !Gateway.Good(futures, k + 1);
    }
  }

  /** The future of a holderless row's order, when that row is the last
      with its order, raised. */
  lemma HolderlessFuture(rows: seq<Registry.Chunk>, filename: string, get: (Node, string) -> GetOutcome, races: seq<seq<nat>>, k: nat)
    requires Gateway.RacesFit(rows, races)
    requires k < |rows|
    requires forall j :: 0 <= j < |rows| ==> rows[j].order == Some(j + 1)
    requires |Text.ParseNodeList(rows[k].storageNodes)| == 0
    ensures !Gateway.Good(Gateway.ByOrder(Gateway.Orders(rows), Gateway.DownloadTasks(filename, rows, get, races)), k + 1)
  {
    NumberedRowsLast(rows);
    var tasks := Gateway.DownloadTasks(filename, rows, get, races);
    assert Gateway.Orders(rows)[k] == Some(k + 1);
    assert tasks[k].Raised?;
  }

  /** Entries numbered 1, 2, ..., one per chunk, each with at least one
      holder, every one of which serves the entry's chunk of `name`. */
  predicate EntriesServe(entries: seq<Gateway.ChunkEntry>, name: string, get: (Node, string) -> GetOutcome, chunks: seq<Bytes>) {
    && |entries| == |chunks|
    && forall j :: 0 <= j < |entries| ==>
      && entries[j].order == j + 1
      && |Text.ParseNodeList(entries[j].storageNodes)| > 0
      && forall x :: x in Text.ParseNodeList(entries[j].storageNodes) ==>
           Fetched(get(x, Text.ChunkId(name, Some(j + 1)))) == Some(chunks[j])
  }

  /** The same for the rows the metadata service returns. */
  predicate RowsServe(rows: seq<Registry.Chunk>, name: string, get: (Node, string) -> GetOutcome, chunks: seq<Bytes>) {
    && |rows| == |chunks|
    && forall j :: 0 <= j < |rows| ==>
      && rows[j].order == Some(j + 1)
      && |Text.ParseNodeList(rows[j].storageNodes)| > 0
      && forall x :: x in Text.ParseNodeList(rows[j].storageNodes) ==>
           Fetched(get(x, Text.ChunkId(name, Some(j + 1)))) == Some(chunks[j])
  }

  /** Every holder listed for a chunk of the upload serves that chunk
      from the nodes as the upload left them. */
  lemma EntryHoldersServe(cfg: Gateway.Config, c: Nodes, name: string, chunks: seq<Bytes>, entries: seq<Gateway.ChunkEntry>)
    requires |entries| == |chunks|
    requires EveryChunkAccepted(c, cfg, name, |chunks|)
    requires forall j :: 0 <= j < |entries| ==> entries[j].order == j + 1
    requires forall j :: 0 <= j < |entries| ==>
      multiset(Text.ParseNodeList(entries[j].storageNodes))
      == multiset(AckedNodes(cfg.nodes, Text.ChunkId(name, Some(j + 1)), chunks[j], PutVia(c)))
    ensures EntriesServe(entries, name, GetVia(AfterUpload(c, cfg, name, chunks)), chunks)
  {
    forall j | 0 <= j < |entries|
      ensures |Text.ParseNodeList(entries[j].storageNodes)| > 0
      ensures forall x :: x in Text.ParseNodeList(entries[j].storageNodes) ==>
           Fetched(GetVia(AfterUpload(c, cfg, name, chunks))(x, Text.ChunkId(name, Some(j + 1)))) == Some(chunks[j])
    {
      assert ChunkHasAcceptor(c, cfg, name, j + 1);
      HoldersAccept(c, cfg, Text.ChunkId(name, Some(j + 1)), chunks[j], entries[j].storageNodes);
      forall x | x in Text.ParseNodeList(entries[j].storageNodes)
        ensures Fetched(GetVia(AfterUpload(c, cfg, name, chunks))(x, Text.ChunkId(name, Some(j + 1)))) == Some(chunks[j])
      {
        HolderServes(c, cfg, name, chunks, j, x);
      }
    }
  }

  /** After a fresh upload whose every chunk has an acceptor, the entries
      are numbered 1, 2, ..., one per chunk, every chunk has a holder and
      every holder serves it. */
  lemma UploadHoldersServe(cfg: Gateway.Config, c: Nodes, reg: Registry.State, f: Gateway.FilePart,
                           digest: Bytes -> string, completions: seq<seq<nat>>)
    requires Gateway.ValidConfig(cfg)
    requires Registry.Valid(reg)
    requires f.filename != "" && |f.data| > 0
    requires EveryChunkAccepted(c, cfg, f.filename, |Gateway.FileChunks(f.data)|)
    requires Gateway.UploadOrdersFit(cfg, Some(f), completions)
    ensures var up := Gateway.UploadFile(cfg, reg, Some(f), digest, PutVia(c), completions);
      var chunks := Gateway.FileChunks(f.data);
      && up.1.Uploaded?
      && EntriesServe(up.1.chunkMetadata, f.filename, GetVia(AfterUpload(c, cfg, f.filename, chunks)), chunks)
  {
    var put := PutVia(c);
    var up := Gateway.UploadFile(cfg, reg, Some(f), digest, put, completions);
    SomeConfiguredNode(c, cfg, f);
    assert up.1.Uploaded?;
    assert Gateway.UploadRecorded(cfg, reg, f, digest, put, up.0, up.1);
    EntryHoldersServe(cfg, c, f.filename, Gateway.FileChunks(f.data), up.1.chunkMetadata);
  }

  /** Rows stored from serving entries serve the same chunks. */
  lemma EntryRowsServe(rows: seq<Registry.Chunk>, entries: seq<Gateway.ChunkEntry>, name: string,
                       get: (Node, string) -> GetOutcome, chunks: seq<Bytes>)
    requires rows == seq(|entries|, j requires 0 <= j < |entries| => Gateway.EntryChunk(entries[j]))
    requires EntriesServe(entries, name, get, chunks)
    ensures RowsServe(rows, name, get, chunks)
  {
    forall j | 0 <= j < |rows|
      ensures rows[j].order == Some(j + 1)
      ensures |Text.ParseNodeList(rows[j].storageNodes)| > 0
      ensures forall x :: x in Text.ParseNodeList(rows[j].storageNodes) ==> Fetched(get(x, Text.ChunkId(name, Some(j + 1)))) == Some(chunks[j])
    {
      EntryRowServes(rows[j], entries[j], j, name, get, chunks);
    }
  }

  lemma EntryRowServes(row: Registry.Chunk, e: Gateway.ChunkEntry, j: nat, name: string, get: (Node, string) -> GetOutcome, chunks: seq<Bytes>)
    requires row == Gateway.EntryChunk(e)
    requires j < |chunks|
    requires e.order == j + 1
    requires |Text.ParseNodeList(e.storageNodes)| > 0
    requires forall x :: x in Text.ParseNodeList(e.storageNodes) ==> Fetched(get(x, Text.ChunkId(name, Some(j + 1)))) == Some(chunks[j])
    ensures row.order == Some(j + 1)
    ensures |Text.ParseNodeList(row.storageNodes)| > 0
    ensures forall x :: x in Text.ParseNodeList(row.storageNodes) ==> Fetched(get(x, Text.ChunkId(name, Some(j + 1)))) == Some(chunks[j])
  {
  }

  /** When every row serves its chunk, chunk k is served by row k, the
      last (and only) row with order k+1, whatever the completion order
      of its race. */
  lemma RowServed(rows: seq<Registry.Chunk>, name: string, get: (Node, string) -> GetOutcome,
                  races: seq<seq<nat>>, chunks: seq<Bytes>, k: nat)
    requires RowsServe(rows, name, get, chunks)
    requires Gateway.RacesFit(rows, races)
    requires k < |chunks|
    ensures Gateway.Served(rows, name, get, races, chunks, k)
  {
    NumberedRowsLast(rows);
    RaceAgrees(rows[k].storageNodes, Text.ChunkId(name, Some(k + 1)), get, races[k], chunks[k]);
    assert Gateway.PartServed(rows, name, get, races, chunks, k, k);
  }

  /** A reachable node holding the chunk answers with its JSON message,
      which the gateway records as that node's reply, exactly when the
      removal does not raise; otherwise its 500 becomes an error entry. */
  lemma DelViaDeletes(c: Nodes, x: Node, chunkId: string)
    requires x in c && StorageNode.StorageKey(chunkId) in c[x].files
    ensures DeleteResult(DelVia(c)(x, chunkId)).Replied? <==> Removes(c, x, chunkId)
  {
  }

  /** After the upload, a configured node that accepted chunk k reports it
      deleted exactly when it can remove it. */
  lemma HolderDeletes(c: Nodes, cfg: Gateway.Config, name: string, chunks: seq<Bytes>, k: nat, x: Node)
    requires k < |chunks|
    requires x in cfg.nodes && Accepts(c, x, Text.ChunkId(name, Some(k + 1)))
    ensures DeleteResult(DelVia(AfterUpload(c, cfg, name, chunks))(x, Text.ChunkId(name, Some(k + 1)))).Replied?
        <==> Removes(c, x, Text.ChunkId(name, Some(k + 1)))
  {
    var c' := AfterUpload(c, cfg, name, chunks);
    assert c'[x] == StoreChunks(c[x], name, chunks);
    assert ChunkKey(name, k + 1) in c'[x].files;
    DelViaDeletes(c', x, Text.ChunkId(name, Some(k + 1)));
  }

  /** Entries numbered 1, 2, ..., each with at least one holder, every one
      of which reports the entry's chunk of `name` deleted exactly when it
      can remove it from its directory in `c`. */
  predicate EntriesReply(entries: seq<Gateway.ChunkEntry>, name: string, del: (Node, string) -> DelOutcome, c: Nodes) {
    forall j :: 0 <= j < |entries| ==>
      && entries[j].order == j + 1
      && |Text.ParseNodeList(entries[j].storageNodes)| > 0
      && forall x :: x in Text.ParseNodeList(entries[j].storageNodes) ==>
           (DeleteResult(del(x, Text.ChunkId(name, Some(j + 1)))).Replied? <==> Removes(c, x, Text.ChunkId(name, Some(j + 1))))
  }

  /** Rows numbered 1, 2, ... in list order, each with at least one holder. */
  predicate RowsHeld(rows: seq<Registry.Chunk>) {
    forall j :: 0 <= j < |rows| ==>
      rows[j].order == Some(j + 1) && |Text.ParseNodeList(rows[j].storageNodes)| > 0
  }

  /** The same as `EntriesReply` for the rows the metadata service returns. */
  predicate RowsReply(rows: seq<Registry.Chunk>, name: string, del: (Node, string) -> DelOutcome, c: Nodes) {
    forall j :: 0 <= j < |rows| ==>
      && rows[j].order == Some(j + 1)
      && |Text.ParseNodeList(rows[j].storageNodes)| > 0
      && forall x :: x in Text.ParseNodeList(rows[j].storageNodes) ==>
           (DeleteResult(del(x, Text.ChunkId(name, Some(j + 1)))).Replied? <==> Removes(c, x, Text.ChunkId(name, Some(j + 1))))
  }

  /** Every holder listed for a chunk of the upload reports that chunk
      deleted from the nodes as the upload left them exactly when it can
      remove it. */
  lemma EntryHoldersDelete(cfg: Gateway.Config, c: Nodes, name: string, chunks: seq<Bytes>, entries: seq<Gateway.ChunkEntry>)
    requires |entries| == |chunks|
    requires EveryChunkAccepted(c, cfg, name, |chunks|)
    requires forall j :: 0 <= j < |entries| ==> entries[j].order == j + 1
    requires forall j :: 0 <= j < |entries| ==>
      multiset(Text.ParseNodeList(entries[j].storageNodes))
      == multiset(AckedNodes(cfg.nodes, Text.ChunkId(name, Some(j + 1)), chunks[j], PutVia(c)))
    ensures EntriesReply(entries, name, DelVia(AfterUpload(c, cfg, name, chunks)), c)
  {
    var del := DelVia(AfterUpload(c, cfg, name, chunks));
    forall j | 0 <= j < |entries|
      ensures |Text.ParseNodeList(entries[j].storageNodes)| > 0
      ensures forall x :: x in Text.ParseNodeList(entries[j].storageNodes) ==>
           (DeleteResult(del(x, Text.ChunkId(name, Some(j + 1)))).Replied? <==> Removes(c, x, Text.ChunkId(name, Some(j + 1))))
    {
      assert ChunkHasAcceptor(c, cfg, name, j + 1);
      HoldersAccept(c, cfg, Text.ChunkId(name, Some(j + 1)), chunks[j], entries[j].storageNodes);
      forall x | x in Text.ParseNodeList(entries[j].storageNodes)
        ensures DeleteResult(del(x, Text.ChunkId(name, Some(j + 1)))).Replied? <==> Removes(c, x, Text.ChunkId(name, Some(j + 1)))
      {
        HolderDeletes(c, cfg, name, chunks, j, x);
      }
    }
  }

  /** Rows stored from entries carry the entries' orders and holders. */
  lemma EntryRows(rows: seq<Registry.Chunk>, entries: seq<Gateway.ChunkEntry>, name: string, del: (Node, string) -> DelOutcome, c: Nodes)
    requires rows == seq(|entries|, j requires 0 <= j < |entries| => Gateway.EntryChunk(entries[j]))
    requires EntriesReply(entries, name, del, c)
    ensures |rows| == |entries|
    ensures RowsReply(rows, name, del, c)
  {
    forall j | 0 <= j < |rows|
      ensures rows[j].order == Some(j + 1)
      ensures |Text.ParseNodeList(rows[j].storageNodes)| > 0
      ensures forall x :: x in Text.ParseNodeList(rows[j].storageNodes) ==>
        (DeleteResult(del(x, Text.ChunkId(name, Some(j + 1)))).Replied? <==> Removes(c, x, Text.ChunkId(name, Some(j + 1))))
    {
      EntryRowReplies(rows[j], entries[j], j, name, del, c);
    }
  }

  lemma EntryRowReplies(row: Registry.Chunk, e: Gateway.ChunkEntry, j: nat, name: string, del: (Node, string) -> DelOutcome, c: Nodes)
    requires row == Gateway.EntryChunk(e)
    requires e.order == j + 1
    requires |Text.ParseNodeList(e.storageNodes)| > 0
    requires forall x :: x in Text.ParseNodeList(e.storageNodes) ==>
      (DeleteResult(del(x, Text.ChunkId(name, Some(j + 1)))).Replied? <==> Removes(c, x, Text.ChunkId(name, Some(j + 1))))
    ensures row.order == Some(j + 1)
    ensures |Text.ParseNodeList(row.storageNodes)| > 0
    ensures forall x :: x in Text.ParseNodeList(row.storageNodes) ==>
      (DeleteResult(del(x, Text.ChunkId(name, Some(j + 1)))).Replied? <==> Removes(c, x, Text.ChunkId(name, Some(j + 1))))
  {
  }

  /** Rows numbered 1, 2, ... each come last with their order. */
  lemma NumberedRowsLast(rows: seq<Registry.Chunk>)
    requires forall j :: 0 <= j < |rows| ==> rows[j].order == Some(j + 1)
    ensures forall j :: 0 <= j < |rows| ==> Gateway.LastWith(Gateway.Orders(rows), j)
  {
    var orders := Gateway.Orders(rows);
    forall j | 0 <= j < |rows|
      ensures Gateway.LastWith(orders, j)
    {
      forall m | j < m < |orders|
        ensures orders[m] != orders[j]
      {
        assert orders[m] == Some(m + 1);
      }
    }
  }

  /** A gateway delete of a file with at least one row, whose rows are
      numbered 1, 2, ... and each have a holder, succeeds whatever the
      nodes answer: a node failure only becomes an error entry. */
  lemma DeleteSucceeds(reg: Registry.State, id: nat, del: (Node, string) -> DelOutcome)
    requires Registry.Valid(reg)
    requires id in reg.files
    requires |Registry.GetFile(reg, id).chunks| > 0
    requires RowsHeld(Registry.GetFile(reg, id).chunks)
    ensures Gateway.DeleteFile(reg, Gateway.IdNumber(id), del).1.Deleted?
  {
    var rows := Registry.GetFile(reg, id).chunks;
    NumberedRowsLast(rows);
    assert !Gateway.DeleteCrashes(rows);
  }

  /** ... and then the reply holds an entry for each holder of each row,
      under the row's order, which is a reply exactly when that holder
      could remove the chunk. */
  lemma DeleteRecordsReplies(reg: Registry.State, id: nat, name: string, del: (Node, string) -> DelOutcome, c: Nodes)
    requires Registry.Valid(reg)
    requires id in reg.files && reg.files[id].filename == name
    requires Gateway.DeleteFile(reg, Gateway.IdNumber(id), del).1.Deleted?
    requires RowsReply(Registry.GetFile(reg, id).chunks, name, del, c)
    ensures var rows := Registry.GetFile(reg, id).chunks;
      var results := Gateway.DeleteFile(reg, Gateway.IdNumber(id), del).1.results;
      forall k, x :: 0 <= k < |rows| && x in Text.ParseNodeList(rows[k].storageNodes) ==>
        && Some(k + 1) in results && x in results[Some(k + 1)]
        && (results[Some(k + 1)][x].Replied? <==> Removes(c, x, Text.ChunkId(name, Some(k + 1))))
  {
    var rows := Registry.GetFile(reg, id).chunks;
    var results: map<Option<int>, map<Node, NodeResult>> := Gateway.DeleteFile(reg, Gateway.IdNumber(id), del).1.results;
    assert Gateway.ResultsMatch(rows, name, del, results);
    NumberedRowsLast(rows);
    forall k, x | 0 <= k < |rows| && x in Text.ParseNodeList(rows[k].storageNodes)
      ensures Some(k + 1) in results && x in results[Some(k + 1)]
      ensures results[Some(k + 1)][x].Replied? <==> Removes(c, x, Text.ChunkId(name, Some(k + 1)))
    {
      HolderReply(rows, name, del, results, k, x);
    }
  }

  /** A holder of a kept row has that node's own result in the reply. */
  lemma HolderReply(rows: seq<Registry.Chunk>, name: string, del: (Node, string) -> DelOutcome,
                    results: map<Option<int>, map<Node, NodeResult>>, k: nat, x: Node)
    requires Gateway.ResultsMatch(rows, name, del, results)
    requires k < |rows| && Gateway.LastWith(Gateway.Orders(rows), k)
    requires x in Text.ParseNodeList(rows[k].storageNodes)
    ensures rows[k].order in results && x in results[rows[k].order]
    ensures results[rows[k].order][x] == DeleteResult(del(x, Text.ChunkId(name, rows[k].order)))
  {
    assert x in (set y | y in Text.ParseNodeList(rows[k].storageNodes));
  }

  /** Upload then delete: when every chunk of a non-empty file with a
      path-safe name has a configured node that can save it, deleting the
      freshly uploaded file through the gateway succeeds, every holder the
      metadata service lists for each chunk has an entry in the reply,
      which reports the chunk deleted exactly when that node can remove
      it, and the metadata service is left with exactly the files and
      chunk rows it had before the upload. The configured nodes are
      distinct: a node listed twice is sent two DELETEs of one chunk, and
      the second answers from the directory the first has changed. */
  lemma {:induction false} UploadThenDelete(cfg: Gateway.Config, c: Nodes, reg: Registry.State, f: Gateway.FilePart,
                                            digest: Bytes -> string, completions: seq<seq<nat>>)
    requires Gateway.ValidConfig(cfg)
    requires Registry.Valid(reg)
    requires Registry.ChunksOf(reg.chunks, reg.nextId) == []
    requires f.filename != "" && PathSafe(f.filename) && |f.data| > 0
    requires EveryChunkAccepted(c, cfg, f.filename, |Gateway.FileChunks(f.data)|)
    requires Gateway.UploadOrdersFit(cfg, Some(f), completions)
    requires forall i, j :: 0 <= i < j < |cfg.nodes| ==> cfg.nodes[i] != cfg.nodes[j]
    ensures Gateway.UploadFile(cfg, reg, Some(f), digest, PutVia(c), completions).1.Uploaded?
    ensures var up := Gateway.UploadFile(cfg, reg, Some(f), digest, PutVia(c), completions);
      var rows := Registry.GetFile(up.0, up.1.fileId).chunks;
      var d := Gateway.DeleteFile(up.0, Gateway.IdNumber(up.1.fileId), DelVia(AfterUpload(c, cfg, f.filename, Gateway.FileChunks(f.data))));
      && d.1.Deleted?
      && d.0.files == reg.files
      && d.0.chunks == reg.chunks
      && forall k, x :: 0 <= k < |rows| && x in Text.ParseNodeList(rows[k].storageNodes) ==>
           && Some(k + 1) in d.1.results && x in d.1.results[Some(k + 1)]
           && (d.1.results[Some(k + 1)][x].Replied? <==> Removes(c, x, Text.ChunkId(f.filename, Some(k + 1))))
  {
    var up := Gateway.UploadFile(cfg, reg, Some(f), digest, PutVia(c), completions);
    SomeConfiguredNode(c, cfg, f);
    assert up.1.Uploaded?;
    var id := up.1.fileId;
    var del := DelVia(AfterUpload(c, cfg, f.filename, Gateway.FileChunks(f.data)));
    DeletableUpload(cfg, c, reg, f, digest, completions);
    UploadHoldersDelete(cfg, c, reg, f, digest, completions);
    EntryRows(Registry.GetFile(up.0, id).chunks, up.1.chunkMetadata, f.filename, del, c);
    DeleteSucceeds(up.0, id, del);
    DeleteRecordsReplies(up.0, id, f.filename, del, c);
    DeletedFiles(up.0, id, del);
    FilesAfterUndo(reg.files, up.0.files, id);
    DeletedRows(cfg, c, reg, f, digest, completions, del);
  }

  /** What the delete needs to know about the metadata after a fresh
      upload: the file is new, named as uploaded, and its rows are its
      entries, of which there is at least one. */
  lemma DeletableUpload(cfg: Gateway.Config, c: Nodes, reg: Registry.State, f: Gateway.FilePart,
                        digest: Bytes -> string, completions: seq<seq<nat>>)
    requires Gateway.ValidConfig(cfg)
    requires Registry.Valid(reg)
    requires Registry.ChunksOf(reg.chunks, reg.nextId) == []
    requires f.filename != "" && |f.data| > 0 && |cfg.nodes| > 0
    requires Gateway.UploadOrdersFit(cfg, Some(f), completions)
    ensures var up := Gateway.UploadFile(cfg, reg, Some(f), digest, PutVia(c), completions);
      var id := up.1.fileId;
      var entries := up.1.chunkMetadata;
      && up.1.Uploaded? && Registry.Valid(up.0)
      && id in up.0.files && id !in reg.files
      && up.0.files == reg.files[id := up.0.files[id]]
      && up.0.files[id].filename == f.filename
      && Registry.GetFile(up.0, id).chunks == seq(|entries|, j requires 0 <= j < |entries| => Gateway.EntryChunk(entries[j]))
      && |entries| > 0
  {
    var put := PutVia(c);
    var up := Gateway.UploadFile(cfg, reg, Some(f), digest, put, completions);
    assert up.1.Uploaded?;
    Gateway.UploadThenGetFile(cfg, reg, f, digest, put, completions);
    Chunker.SplitFileNonEmpty(f.data, Chunker.DefaultChunkSize);
  }

  /** After a fresh upload whose every chunk has an acceptor, the entries
      are numbered 1, 2, ..., every chunk has a holder and every holder
      reports it deleted exactly when it can remove it. */
  lemma UploadHoldersDelete(cfg: Gateway.Config, c: Nodes, reg: Registry.State, f: Gateway.FilePart,
                            digest: Bytes -> string, completions: seq<seq<nat>>)
    requires Gateway.ValidConfig(cfg)
    requires Registry.Valid(reg)
    requires f.filename != "" && |f.data| > 0
    requires EveryChunkAccepted(c, cfg, f.filename, |Gateway.FileChunks(f.data)|)
    requires Gateway.UploadOrdersFit(cfg, Some(f), completions)
    ensures var up := Gateway.UploadFile(cfg, reg, Some(f), digest, PutVia(c), completions);
      && up.1.Uploaded?
      && EntriesReply(up.1.chunkMetadata, f.filename, DelVia(AfterUpload(c, cfg, f.filename, Gateway.FileChunks(f.data))), c)
  {
    var put := PutVia(c);
    var up := Gateway.UploadFile(cfg, reg, Some(f), digest, put, completions);
    SomeConfiguredNode(c, cfg, f);
    assert up.1.Uploaded?;
    assert Gateway.UploadRecorded(cfg, reg, f, digest, put, up.0, up.1);
    EntryHoldersDelete(cfg, c, f.filename, Gateway.FileChunks(f.data), up.1.chunkMetadata);
  }

  /** A successful gateway delete drops exactly that file's record. */
  lemma DeletedFiles(reg: Registry.State, id: nat, del: (Node, string) -> DelOutcome)
    requires Registry.Valid(reg)
    requires Gateway.DeleteFile(reg, Gateway.IdNumber(id), del).1.Deleted?
    ensures Gateway.DeleteFile(reg, Gateway.IdNumber(id), del).0.files == reg.files - {id}
  {
  }

  /** A successful gateway delete of a fresh upload drops exactly the chunk
      rows the upload appended. */
  lemma DeletedRows(cfg: Gateway.Config, c: Nodes, reg: Registry.State, f: Gateway.FilePart,
                    digest: Bytes -> string, completions: seq<seq<nat>>, del: (Node, string) -> DelOutcome)
    requires Gateway.ValidConfig(cfg)
    requires Registry.Valid(reg)
    requires Registry.ChunksOf(reg.chunks, reg.nextId) == []
    requires Gateway.UploadOrdersFit(cfg, Some(f), completions)
    requires var up := Gateway.UploadFile(cfg, reg, Some(f), digest, PutVia(c), completions);
      up.1.Uploaded? && Gateway.DeleteFile(up.0, Gateway.IdNumber(up.1.fileId), del).1.Deleted?
    ensures var up := Gateway.UploadFile(cfg, reg, Some(f), digest, PutVia(c), completions);
      Gateway.DeleteFile(up.0, Gateway.IdNumber(up.1.fileId), del).0.chunks == reg.chunks
  {
    var up := Gateway.UploadFile(cfg, reg, Some(f), digest, PutVia(c), completions);
    assert Gateway.UploadRecorded(cfg, reg, f, digest, PutVia(c), up.0, up.1);
    AppendedRowsDeleted(reg, up.0, up.1.fileId, up.1.chunkMetadata);
  }

  /** The same for the registry states alone: rows appended under an id no
      earlier row has are exactly the rows its delete drops. */
  lemma AppendedRowsDeleted(reg: Registry.State, reg': Registry.State, id: nat, entries: seq<Gateway.ChunkEntry>)
    requires Registry.Valid(reg') && id in reg'.files
    requires Registry.ChunksOf(reg.chunks, id) == []
    requires reg'.chunks == reg.chunks + seq(|entries|, j requires 0 <= j < |entries| => Gateway.EntryRow(id, entries[j]))
    ensures Registry.DeleteFile(reg', id).0.chunks == reg.chunks
  {
    var added := seq(|entries|, j requires 0 <= j < |entries| => Gateway.EntryRow(id, entries[j]));
    assert forall r :: r in added ==> r.fileId == id;
    Registry.DeleteDropsAppended(reg', id, reg.chunks, added);
  }

  /** Registering a file under a fresh id and then dropping it leaves the
      files as they were. */
  lemma FilesAfterUndo(files: map<nat, Registry.FileRecord>, files': map<nat, Registry.FileRecord>, id: nat)
    requires id in files' && id !in files
    requires files' == files[id := files'[id]]
    ensures files' - {id} == files
  {
  }

  /** Chunk ids depend only on the file name and the order, so a second
      upload under the same name overwrites the first one's chunks on every
      node that accepts them: after both, such a node holds the second
      file's chunk k, and a download of that chunk id, which the first
      file's rows still name, is served the second file's bytes. */
  lemma SameNameOverwrites(node: StorageNode.State, name: string, a: seq<Bytes>, b: seq<Bytes>, k: nat)
    requires k < |a| && k < |b|
    requires ChunkKey(name, k + 1) !in node.saveFails
    ensures var after := StoreChunks(StoreChunks(node, name, a), name, b);
      && ChunkKey(name, k + 1) in after.files && after.files[ChunkKey(name, k + 1)] == b[k]
      && StorageNode.DownloadChunk(after, Text.ChunkId(name, Some(k + 1))) == StorageNode.Response(200, StorageNode.Payload(b[k]))
  {
    var first := StoreChunks(node, name, a);
    assert first.saveFails == node.saveFails;
  }
}

=== FILE: coordinators.dfy ===
/**
  The gateway's per-chunk fan-out (backend/main/app.py lines 29-98).

  A call to a storage node is not made: its outcome is given by a
  transport function of the node and the request. The thread pool is not
  run either: the order in which the per-node tasks complete is an explicit
  permutation `completion` of the job indices, and `as_completed`
  consumes the jobs in that order.
 */
module Coordinators {
  import opened Base
  import Text

  type Node = string

  /** What came of one HTTP request to a node: a response with a status
      (and, for reads, its content; for deletes, its JSON body if it had
      one), or an exception from the transport (unreachable, timeout). */
  datatype PutOutcome = PutResponse(status: int) | PutRaised
  datatype GetOutcome = GetResponse(status: int, content: Bytes) | GetRaised
  datatype DelOutcome = DelResponse(status: int, json: Option<string>) | DelRaised

  /** `response.raise_for_status()` raises for 4xx and 5xx statuses only. */
  predicate RaisesForStatus(status: int) {
    400 <= status < 600
  }

  // ---------------------------------------------------------------------
  // Single-node helpers: every failure is folded into the return value.
  // ---------------------------------------------------------------------

  /** `upload_chunk`: True exactly when the request got a response whose
      status does not raise. */
  predicate Stored(o: PutOutcome) {
    o.PutResponse? && !RaisesForStatus(o.status)
  }

  /** `download_chunk_from_storage`: the response content, or None on an
      exception or a 4xx/5xx status. */
  function Fetched(o: GetOutcome): Option<Bytes> {
    if o.GetResponse? && !RaisesForStatus(o.status) then Some(o.content) else None
  }

  /** What `delete_chunk_from_storage` returns for one node: the decoded
      JSON reply, or an `{"error": ...}` entry (message text not kept). */
  datatype NodeResult = Replied(json: string) | ErrorEntry

  function DeleteResult(o: DelOutcome): NodeResult {
    if o.DelResponse? && !RaisesForStatus(o.status) && o.json.Some? then Replied(o.json.value)
    else ErrorEntry
  }

  // ---------------------------------------------------------------------
  // replicate_chunk: write to all, wait for all, keep the acknowledgers.
  // ---------------------------------------------------------------------

  /** The acknowledging nodes, taken in the given task order. */
  function AckedIn(nodes: seq<Node>, chunkId: string, data: Bytes, put: (Node, string, Bytes) -> PutOutcome, order: seq<nat>): (r: seq<Node>)
    requires InRange(order, |nodes|)
    ensures |r| <= |order|
  {
    if |order| == 0 then []
    else
      var n := nodes[order[0]];
      (if Stored(put(n, chunkId, data)) then [n] else []) + AckedIn(nodes, chunkId, data, put, order[1..])
  }

  /** A node is among the acknowledgers exactly when one of the jobs in
      the order wrote to it and it stored the chunk. */
  lemma {:induction false} AckedInMembers(nodes: seq<Node>, chunkId: string, data: Bytes, put: (Node, string, Bytes) -> PutOutcome, order: seq<nat>)
    requires InRange(order, |nodes|)
    ensures forall x :: x in AckedIn(nodes, chunkId, data, put, order) <==>
      exists j :: 0 <= j < |order| && nodes[order[j]] == x && Stored(put(x, chunkId, data))
  {
    if |order| > 0 {
      AckedInMembers(nodes, chunkId, data, put, order[1..]);
      assert forall j :: 1 <= j < |order| ==> order[j] == order[1..][j - 1];
    }
  }

  lemma {:induction false} AckedInAppend(nodes: seq<Node>, chunkId: string, data: Bytes, put: (Node, string, Bytes) -> PutOutcome, a: seq<nat>, b: seq<nat>)
    requires InRange(a, |nodes|) && InRange(b, |nodes|)
    ensures InRange(a + b, |nodes|)
    ensures AckedIn(nodes, chunkId, data, put, a + b) == AckedIn(nodes, chunkId, data, put, a) + AckedIn(nodes, chunkId, data, put, b)
  {
    if |a| > 0 {
      assert (a + b)[1..] == a[1..] + b;
      AckedInAppend(nodes, chunkId, data, put, a[1..], b);
    } else {
      assert a + b == b;
    }
  }

  /** The acknowledging nodes do not depend on the order the jobs complete
      in, up to rearrangement. */
  lemma {:induction false} AckedInPermutation(nodes: seq<Node>, chunkId: string, data: Bytes, put: (Node, string, Bytes) -> PutOutcome, a: seq<nat>, b: seq<nat>)
    requires InRange(a, |nodes|) && InRange(b, |nodes|)
    requires multiset(a) == multiset(b)
    ensures multiset(AckedIn(nodes, chunkId, data, put, a)) == multiset(AckedIn(nodes, chunkId, data, put, b))
    decreases |a|
  {
    if |a| > 0 {
      var e := a[0];
      var k := MultisetRemove(a, b);
      var b' := b[..k] + b[k + 1..];
      AckedInPermutation(nodes, chunkId, data, put, a[1..], b');
      var one := AckedIn(nodes, chunkId, data, put, [e]);
      AckedInSplice(nodes, chunkId, data, put, b, k);
      assert a == [e] + a[1..];
      AckedInAppend(nodes, chunkId, data, put, [e], a[1..]);
      MultisetSplice(AckedIn(nodes, chunkId, data, put, a), AckedIn(nodes, chunkId, data, put, b), one,
        AckedIn(nodes, chunkId, data, put, a[1..]), AckedIn(nodes, chunkId, data, put, b[..k]), AckedIn(nodes, chunkId, data, put, b[k + 1..]));
    } else {
      assert |multiset(b)| == 0;
    }
  }

  /** Taking the job at position k out of `b`: what is acknowledged by
      the whole is what the part before k, task k and the part after
      acknowledge. */
  lemma AckedInSplice(nodes: seq<Node>, chunkId: string, data: Bytes, put: (Node, string, Bytes) -> PutOutcome, b: seq<nat>, k: nat)
    requires InRange(b, |nodes|)
    requires k < |b|
    ensures AckedIn(nodes, chunkId, data, put, b[..k] + b[k + 1..])
         == AckedIn(nodes, chunkId, data, put, b[..k]) + AckedIn(nodes, chunkId, data, put, b[k + 1..])
    ensures AckedIn(nodes, chunkId, data, put, b)
         == AckedIn(nodes, chunkId, data, put, b[..k]) + AckedIn(nodes, chunkId, data, put, [b[k]]) + AckedIn(nodes, chunkId, data, put, b[k + 1..])
  {
    var front, mid, back := b[..k], [b[k]], b[k + 1..];
    assert InRange(front, |nodes|) && InRange(mid, |nodes|) && InRange(back, |nodes|);
    AckedInAppend(nodes, chunkId, data, put, front, back);
    assert front + (mid + back) == b;
    AckedInAppend(nodes, chunkId, data, put, front, mid + back);
    AckedInAppend(nodes, chunkId, data, put, mid, back);
  }

  lemma MultisetSplice<T>(a: seq<T>, b: seq<T>, one: seq<T>, rest: seq<T>, front: seq<T>, back: seq<T>)
    requires a == one + rest && b == front + one + back
    requires multiset(rest) == multiset(front + back)
    ensures multiset(a) == multiset(b)
  {
    assert multiset(front + back) == multiset(front) + multiset(back);
  }

  /** Where the head of `a` sits in a rearrangement `b` of it, and what is
      left of both once it is taken out. */
  lemma MultisetRemove(a: seq<nat>, b: seq<nat>) returns (k: nat)
    requires |a| > 0
    requires multiset(a) == multiset(b)
    ensures k < |b| && b[k] == a[0]
    ensures multiset(a[1..]) == multiset(b[..k] + b[k + 1..])
  {
    var e := a[0];
    assert e in multiset(b);
    k :| 0 <= k < |b| && b[k] == e;
    assert b == b[..k] + [e] + b[k + 1..];
    assert multiset(b) == multiset(b[..k]) + multiset{e} + multiset(b[k + 1..]);
    assert a == [e] + a[1..];
    assert multiset(a) == multiset{e} + multiset(a[1..]);
    assert multiset(b[..k] + b[k + 1..]) == multiset(b[..k]) + multiset(b[k + 1..]);
    calc {
      multiset(a[1..]);
      multiset(a) - multiset{e};
      multiset(b) - multiset{e};
      multiset(b[..k]) + multiset(b[k + 1..]);
    }
  }

  /** The nodes that stored the chunk, in configuration order: the
      reference the completion-ordered result is compared with. */
  function AckedNodes(nodes: seq<Node>, chunkId: string, data: Bytes, put: (Node, string, Bytes) -> PutOutcome): seq<Node> {
    AckedIn(nodes, chunkId, data, put, Indices(|nodes|))
  }

  /** Number of configured nodes that stored the chunk. */
  function AckCount(nodes: seq<Node>, chunkId: string, data: Bytes, put: (Node, string, Bytes) -> PutOutcome): nat {
    |AckedNodes(nodes, chunkId, data, put)|
  }

  /** `replicate_chunk`: with no configured node the pool cannot be built
      and the call raises. Otherwise every node is written to, all tasks
      are waited for, and the result lists exactly the nodes whose upload
      succeeded, once per configured occurrence, in completion order: the
      same nodes, as many of them, whatever that order. Node failures never
      raise. */
  function ReplicateChunk(nodes: seq<Node>, chunkId: string, data: Bytes, put: (Node, string, Bytes) -> PutOutcome, completion: seq<nat>): (r: Attempt<seq<Node>>)
    requires IsPermutation(completion, |nodes|)
    ensures r.Raised? <==> |nodes| == 0
    ensures r.Returned? ==> multiset(r.value) == multiset(AckedNodes(nodes, chunkId, data, put))
    ensures r.Returned? ==> |r.value| == AckCount(nodes, chunkId, data, put)
    ensures r.Returned? ==> forall x :: x in r.value <==> x in nodes && Stored(put(x, chunkId, data))
  {
    PermutationFacts(completion, |nodes|);
    if |nodes| == 0 then Raised
    else
      var acked := AckedIn(nodes, chunkId, data, put, completion);
      AckedInMembers(nodes, chunkId, data, put, completion);
      AckedInPermutation(nodes, chunkId, data, put, completion, Indices(|nodes|));
      assert |multiset(acked)| == |acked|;
      forall x | x in nodes
        ensures Stored(put(x, chunkId, data)) ==> x in acked
      {
        var i :| 0 <= i < |nodes| && nodes[i] == x;
        var j := PositionOf(completion, |nodes|, i);
        assert nodes[completion[j]] == x;
      }
      Returned(acked)
  }

  /** Distinct configured nodes appear at most once among the holders. */
  lemma {:induction false} AckedInDistinct(nodes: seq<Node>, chunkId: string, data: Bytes, put: (Node, string, Bytes) -> PutOutcome, order: seq<nat>)
    requires InRange(order, |nodes|)
    requires forall i, j :: 0 <= i < j < |nodes| ==> nodes[i] != nodes[j]
    requires forall i, j :: 0 <= i < j < |order| ==> order[i] != order[j]
    ensures forall i, j :: 0 <= i < j < |AckedIn(nodes, chunkId, data, put, order)| ==>
      AckedIn(nodes, chunkId, data, put, order)[i] != AckedIn(nodes, chunkId, data, put, order)[j]
  {
    if |order| > 0 {
      var n := nodes[order[0]];
      var rest := AckedIn(nodes, chunkId, data, put, order[1..]);
      AckedInDistinct(nodes, chunkId, data, put, order[1..]);
      AckedInMembers(nodes, chunkId, data, put, order[1..]);
      forall j | 0 <= j < |order[1..]|
        ensures nodes[order[1..][j]] != n
      {
        assert order[1..][j] == order[j + 1];
      }
    }
  }

  // ---------------------------------------------------------------------
  // download_replicated_chunk: race the holders, first success wins.
  // ---------------------------------------------------------------------

  /** The job at position j of the order returned `payload`, and every
      task before it failed. */
  predicate FirstSuccessAt(nodes: seq<Node>, chunkId: string, get: (Node, string) -> GetOutcome, order: seq<nat>, j: nat, payload: Bytes)
    requires InRange(order, |nodes|)
    requires j < |order|
  {
    && Fetched(get(nodes[order[j]], chunkId)) == Some(payload)
    && forall k :: 0 <= k < j ==> Fetched(get(nodes[order[k]], chunkId)).None?
  }

  /** The first payload, in the given task order, that a holder returned. */
  function FirstFetched(nodes: seq<Node>, chunkId: string, get: (Node, string) -> GetOutcome, order: seq<nat>): (r: Option<Bytes>)
    requires InRange(order, |nodes|)
    ensures r.None? <==> forall j :: 0 <= j < |order| ==> Fetched(get(nodes[order[j]], chunkId)).None?
    ensures r.Some? ==> exists j :: 0 <= j < |order| && FirstSuccessAt(nodes, chunkId, get, order, j, r.value)
  {
    if |order| == 0 then None
    else
      var first := Fetched(get(nodes[order[0]], chunkId));
      if first.Some? then
        assert FirstSuccessAt(nodes, chunkId, get, order, 0, first.value);
        first
      else
        var rest := FirstFetched(nodes, chunkId, get, order[1..]);
        assert forall j :: 1 <= j < |order| ==> order[j] == order[1..][j - 1];
        if rest.Some? then
          var j :| 0 <= j < |order[1..]| && FirstSuccessAt(nodes, chunkId, get, order[1..], j, rest.value);
          assert FirstSuccessAt(nodes, chunkId, get, order, j + 1, rest.value);
          rest
        else rest
  }

  /** `download_replicated_chunk`: the holder list is the comma-split
      string with blanks dropped; with no holder the pool cannot be built
      and the call raises. Otherwise the result is the payload of the first
      holder, in completion order, whose download succeeded, and None
      exactly when every holder failed. */
  function DownloadReplicatedChunk(holders: string, chunkId: string, get: (Node, string) -> GetOutcome, completion: seq<nat>): (r: Attempt<Option<Bytes>>)
    requires IsPermutation(completion, |Text.ParseNodeList(holders)|)
    ensures InRange(completion, |Text.ParseNodeList(holders)|)
    ensures r.Raised? <==> |Text.ParseNodeList(holders)| == 0
    ensures r.Returned? ==> var nodes := Text.ParseNodeList(holders);
      && (r.value.None? <==> forall x :: x in nodes ==> Fetched(get(x, chunkId)).None?)
      && (r.value.Some? ==> exists j :: 0 <= j < |completion| && FirstSuccessAt(nodes, chunkId, get, completion, j, r.value.value))
  {
    var nodes := Text.ParseNodeList(holders);
    PermutationFacts(completion, |nodes|);
    if |nodes| == 0 then Raised
    else
      var r := FirstFetched(nodes, chunkId, get, completion);
      forall x | x in nodes
        ensures r.None? ==> Fetched(get(x, chunkId)).None?
      {
        var i :| 0 <= i < |nodes| && nodes[i] == x;
        var j := PositionOf(completion, |nodes|, i);
      }
      Returned(r)
  }

  /** When every holder that answers serves the same bytes, the race
      returns those bytes whichever holder wins. */
  lemma RaceAgrees(holders: string, chunkId: string, get: (Node, string) -> GetOutcome, completion: seq<nat>, bytes: Bytes)
    requires IsPermutation(completion, |Text.ParseNodeList(holders)|)
    requires |Text.ParseNodeList(holders)| > 0
    requires forall x :: x in Text.ParseNodeList(holders) ==> Fetched(get(x, chunkId)) == Some(bytes)
    ensures DownloadReplicatedChunk(holders, chunkId, get, completion) == Returned(Some(bytes))
  {
    var nodes := Text.ParseNodeList(holders);
    PermutationFacts(completion, |nodes|);
    assert nodes[0] in nodes;
    var r := DownloadReplicatedChunk(holders, chunkId, get, completion);
    var j :| 0 <= j < |completion| && FirstSuccessAt(nodes, chunkId, get, completion, j, r.value.value);
    assert nodes[completion[j]] in nodes;
  }

  // ---------------------------------------------------------------------
  // delete_replicated_chunk: delete everywhere, wait for all, map results.
  // ---------------------------------------------------------------------

  /** `results[node] = ...` for the jobs in the given order: a later job
      for the same node name overwrites an earlier one. */
  function ResultsIn(nodes: seq<Node>, chunkId: string, del: (Node, string) -> DelOutcome, order: seq<nat>): (m: map<Node, NodeResult>)
    requires InRange(order, |nodes|)
    ensures forall x :: x in m <==> exists j :: 0 <= j < |order| && nodes[order[j]] == x
    ensures forall x :: x in m ==> m[x] == DeleteResult(del(x, chunkId))
  {
    if |order| == 0 then map[]
    else
      var last := order[|order| - 1];
      var front := ResultsIn(nodes, chunkId, del, order[..|order| - 1]);
      assert forall j :: 0 <= j < |order| - 1 ==> order[..|order| - 1][j] == order[j];
      front[nodes[last] := DeleteResult(del(nodes[last], chunkId))]
  }

  lemma ResultsKeys<V>(nodes: seq<Node>, completion: seq<nat>, m: map<Node, V>)
    requires IsPermutation(completion, |nodes|)
    requires InRange(completion, |nodes|)
    requires forall x :: x in m <==> exists j :: 0 <= j < |completion| && nodes[completion[j]] == x
    ensures m.Keys == (set x | x in nodes)
  {
    forall x | x in nodes
      ensures x in m
    {
      var i :| 0 <= i < |nodes| && nodes[i] == x;
      var j := PositionOf(completion, |nodes|, i);
      assert nodes[completion[j]] == x;
    }
  }

  /** `delete_replicated_chunk`: with no holder the pool cannot be built
      and the call raises. Otherwise every parsed holder gets exactly one
      entry, its own node's result, whether the delete succeeded or not;
      node failures are recorded as error entries and never raise. */
  function DeleteReplicatedChunk(holders: string, chunkId: string, del: (Node, string) -> DelOutcome, completion: seq<nat>): (r: Attempt<map<Node, NodeResult>>)
    requires IsPermutation(completion, |Text.ParseNodeList(holders)|)
    ensures r.Raised? <==> |Text.ParseNodeList(holders)| == 0
    ensures r.Returned? ==>
      && r.value.Keys == (set x | x in Text.ParseNodeList(holders))
      && forall x :: x in r.value ==> r.value[x] == DeleteResult(del(x, chunkId))
  {
    var nodes := Text.ParseNodeList(holders);
    PermutationFacts(completion, |nodes|);
    if |nodes| == 0 then Raised
    else
      var m := ResultsIn(nodes, chunkId, del, completion);
      ResultsKeys(nodes, completion, m);
      Returned(m)
  }

  /** The per-node delete results do not depend on the order the node
      deletes complete in. */
  lemma DeleteResultsAgree(holders: string, chunkId: string, del: (Node, string) -> DelOutcome, p: seq<nat>, q: seq<nat>)
    requires IsPermutation(p, |Text.ParseNodeList(holders)|)
    requires IsPermutation(q, |Text.ParseNodeList(holders)|)
    ensures DeleteReplicatedChunk(holders, chunkId, del, p) == DeleteReplicatedChunk(holders, chunkId, del, q)
  {
    var a := DeleteReplicatedChunk(holders, chunkId, del, p);
    var b := DeleteReplicatedChunk(holders, chunkId, del, q);
    if a.Returned? {
      assert a.value == b.value;
    }
  }
}

=== FILE: gateway.dfy ===
/**
  The gateway's three endpoints (backend/main/app.py lines 100-231):
  upload splits a file into chunks, replicates each chunk to every
  configured storage node and registers the file and its chunks with the
  metadata service; download fetches the chunk list and races each chunk's
  holders; delete removes every chunk from its holders, then the metadata.

  The metadata service is the registry transition system of the Registry
  module, called in sequence. Node calls go through the transport
  functions, and the completion order of each fan-out is a parameter.
 */
module Gateway {
  import opened Base
  import Text
  import Chunker
  import Registry
  import opened Coordinators

  // ---------------------------------------------------------------------
  // Configuration and request parameters
  // ---------------------------------------------------------------------

  /** The storage nodes the gateway writes to (`STORAGE_NODES`). */
  datatype Config = Config(nodes: seq<Node>)

  predicate ValidConfig(cfg: Config) {
    forall n :: n in cfg.nodes ==> Text.WellFormedNode(n)
  }

  /** The node list read from the `STORAGE_NODES` variable: comma-split,
      stripped, blanks dropped. Every entry is a usable node name, and a
      holder list written from configured nodes parses back to them. */
  function ConfigFrom(storageNodes: string): (cfg: Config)
    ensures ValidConfig(cfg)
    ensures Text.ParseNodeList(Text.JoinNodeList(cfg.nodes)) == cfg.nodes
  {
    var nodes := Text.ParseNodeList(storageNodes);
    Text.NodeListRoundTrip(nodes);
    Config(nodes)
  }

  /** The `file_id` query parameter: absent or empty, text that the
      metadata routes read as the integer `id`, or other text, which those
      routes do not match and answer with 404. */
  datatype IdParam = NoId | IdNumber(id: nat) | IdOther

  /** The metadata service's `GET /files/<file_id>` for a present id. */
  function Lookup(reg: Registry.State, fileId: IdParam): (r: Registry.GetReply)
    requires !fileId.NoId?
    ensures r.FileInfo? <==> fileId.IdNumber? && fileId.id in reg.files
    ensures fileId.IdNumber? ==> r == Registry.GetFile(reg, fileId.id)
    ensures fileId.IdOther? ==> r == Registry.FileMissing
  {
    if fileId.IdNumber? then Registry.GetFile(reg, fileId.id) else Registry.FileMissing
  }

  /** The order of each chunk row. */
  function Orders(rows: seq<Registry.Chunk>): (r: seq<Option<int>>)
    ensures |r| == |rows|
    ensures forall j :: 0 <= j < |rows| ==> r[j] == rows[j].order
  {
    seq(|rows|, j requires 0 <= j < |rows| => rows[j].order)
  }

  /** No later entry has the same key as entry j. */
  predicate LastWith(keys: seq<Option<int>>, j: nat)
    requires j < |keys|
  {
    forall k :: j < k < |keys| ==> keys[k] != keys[j]
  }

  /** `futures[order] = ...` in row order: one entry per distinct order,
      holding the value of the last row with that order. */
  function ByOrder<V>(keys: seq<Option<int>>, values: seq<V>): (m: map<Option<int>, V>)
    requires |keys| == |values|
    ensures m.Keys == (set o | o in keys)
    ensures forall j :: 0 <= j < |keys| && LastWith(keys, j) ==> m[keys[j]] == values[j]
    decreases |keys|
  {
    if |keys| == 0 then map[]
    else
      var n := |keys| - 1;
      var front := ByOrder(keys[..n], values[..n]);
      assert keys == keys[..n] + [keys[n]];
      assert forall j :: 0 <= j < n && LastWith(keys, j) ==> LastWith(keys[..n], j);
      front[keys[n] := values[n]]
  }

  // ---------------------------------------------------------------------
  // POST /upload
  // ---------------------------------------------------------------------

  /** The uploaded `file` part: its name and its bytes. */
  datatype FilePart = FilePart(filename: string, data: Bytes)

  /** One entry of `chunk_metadata`. */
  datatype ChunkEntry = ChunkEntry(order: nat, storageNodes: string, chunkHash: string)

  datatype UploadReply =
    | NoFile
    | NoFileSelected
    | UploadCrashed
    | Uploaded(fileId: nat, filename: string, fileHash: string, fileSize: nat, totalChunks: nat, chunkMetadata: seq<ChunkEntry>)
  {
    function Status(): int {
      match this
      case NoFile => 400
      case NoFileSelected => 400
      case UploadCrashed => 500
      case Uploaded(_, _, _, _, _, _) => 201
    }
  }

  /** The gateway's chunking of a file: 4 MiB pieces. */
  function FileChunks(data: Bytes): seq<Bytes> {
    Chunker.SplitFile(data, Chunker.DefaultChunkSize)
  }

  /** One completion order of the node writes per chunk. */
  predicate UploadOrdersFit(cfg: Config, file: Option<FilePart>, completions: seq<seq<nat>>) {
    file.Some? ==>
      && |completions| == |FileChunks(file.value.data)|
      && forall j :: 0 <= j < |completions| ==> IsPermutation(completions[j], |cfg.nodes|)
  }

  /** The chunk the metadata service keeps for an entry. */
  function EntryChunk(e: ChunkEntry): Registry.Chunk {
    Registry.Chunk(Some(e.order), e.storageNodes, e.chunkHash)
  }

  function EntryRow(fileId: nat, e: ChunkEntry): Registry.ChunkRow {
    Registry.ChunkRow(fileId, EntryChunk(e))
  }

  function EntryInput(e: ChunkEntry): Registry.ChunkInput {
    Registry.ChunkInput(Some(e.order), Some(e.storageNodes), Some(e.chunkHash))
  }

  /** What a successful upload promises: the file is registered under a
      fresh id with its name, hash, size and chunk count; chunk j has order
      j+1, the hash of its bytes, and lists exactly the nodes that stored
      it, each as often as it is configured; its rows follow the existing
      ones. */
  predicate UploadRecorded(cfg: Config, reg: Registry.State, f: FilePart, digest: Bytes -> string,
                           put: (Node, string, Bytes) -> PutOutcome, reg': Registry.State, r: UploadReply)
    requires r.Uploaded?
  {
    var chunks := FileChunks(f.data);
    && r.fileId == reg.nextId && r.fileId !in reg.files
    && r.filename == f.filename && r.fileHash == digest(f.data)
    && r.fileSize == |f.data| && r.totalChunks == |chunks|
    && reg'.files == reg.files[r.fileId := Registry.FileRecord(f.filename, digest(f.data), |f.data|, |chunks|)]
    && |r.chunkMetadata| == |chunks|
    && reg'.chunks == reg.chunks + seq(|chunks|, j requires 0 <= j < |chunks| => EntryRow(r.fileId, r.chunkMetadata[j]))
    && forall j :: 0 <= j < |chunks| ==>
         && r.chunkMetadata[j].order == j + 1
         && r.chunkMetadata[j].chunkHash == digest(chunks[j])
         && multiset(Text.ParseNodeList(r.chunkMetadata[j].storageNodes))
            == multiset(AckedNodes(cfg.nodes, Text.ChunkId(f.filename, Some(j + 1)), chunks[j], put))
  }

  /** `upload_file`: 400 without a file part or with an empty file name.
      An empty file gives no chunk and no node list gives no writer; either
      way the pool cannot be built and the request fails with nothing
      registered. Otherwise every chunk is replicated, the file is
      registered and its chunk rows added, and the reply is 201. */
  function UploadFile(cfg: Config, reg: Registry.State, file: Option<FilePart>, digest: Bytes -> string,
                      put: (Node, string, Bytes) -> PutOutcome, completions: seq<seq<nat>>): (res: (Registry.State, UploadReply))
    requires ValidConfig(cfg)
    requires Registry.Valid(reg)
    requires UploadOrdersFit(cfg, file, completions)
    ensures Registry.Valid(res.0)
    ensures res.1.Status() == 400 <==> file.None? || file.value.filename == ""
    ensures res.1.UploadCrashed? <==> file.Some? && file.value.filename != "" && (|file.value.data| == 0 || |cfg.nodes| == 0)
    ensures !res.1.Uploaded? ==> res.0 == reg
    ensures res.1.Uploaded? ==> UploadRecorded(cfg, reg, file.value, digest, put, res.0, res.1)
  {
    if file.None? then (reg, NoFile)
    else if file.value.filename == "" then (reg, NoFileSelected)
    else
      var name, data := file.value.filename, file.value.data;
      var chunks := FileChunks(data);
      Chunker.SplitFileNonEmpty(data, Chunker.DefaultChunkSize);
      if |chunks| == 0 || |cfg.nodes| == 0 then
        (reg, UploadCrashed)
      else
        StoreUpload(cfg, reg, file.value, digest, put, completions)
  }

  /** The upload of a non-empty file to at least one configured node. */
  function StoreUpload(cfg: Config, reg: Registry.State, f: FilePart, digest: Bytes -> string,
                       put: (Node, string, Bytes) -> PutOutcome, completions: seq<seq<nat>>): (res: (Registry.State, UploadReply))
    requires ValidConfig(cfg) && |cfg.nodes| > 0
    requires Registry.Valid(reg)
    requires UploadOrdersFit(cfg, Some(f), completions)
    ensures Registry.Valid(res.0)
    ensures res.1.Uploaded? && UploadRecorded(cfg, reg, f, digest, put, res.0, res.1)
  {
    var chunks := FileChunks(f.data);
    var entries := ChunkEntries(cfg, f.filename, chunks, digest, put, completions);
    var (reg', id) := RegisterUpload(reg, f.filename, f.data, entries, digest);
    (reg', Uploaded(id, f.filename, digest(f.data), |f.data|, |chunks|, entries))
  }

  /** The nodes that stored each chunk, in the order their writes
      completed (`replicate_chunk` per chunk). */
  function Holders(cfg: Config, name: string, chunks: seq<Bytes>, put: (Node, string, Bytes) -> PutOutcome, completions: seq<seq<nat>>): (r: seq<seq<Node>>)
    requires |cfg.nodes| > 0
    requires |completions| == |chunks|
    requires forall j :: 0 <= j < |completions| ==> IsPermutation(completions[j], |cfg.nodes|)
    ensures |r| == |chunks|
    ensures forall j :: 0 <= j < |chunks| ==> multiset(r[j]) == multiset(AckedNodes(cfg.nodes, Text.ChunkId(name, Some(j + 1)), chunks[j], put))
    ensures forall j, x :: 0 <= j < |chunks| && x in r[j] ==> x in cfg.nodes
  {
    seq(|chunks|, j requires 0 <= j < |chunks| =>
      ReplicateChunk(cfg.nodes, Text.ChunkId(name, Some(j + 1)), chunks[j], put, completions[j]).value)
  }

  /** `chunk_metadata` after every chunk was replicated: entry j has order
      j+1, the hash of chunk j and, as a comma list, the nodes that stored
      it in the order their writes completed. */
  function ChunkEntries(cfg: Config, name: string, chunks: seq<Bytes>, digest: Bytes -> string,
                        put: (Node, string, Bytes) -> PutOutcome, completions: seq<seq<nat>>): (entries: seq<ChunkEntry>)
    requires ValidConfig(cfg)
    requires |cfg.nodes| > 0
    requires |completions| == |chunks|
    requires forall j :: 0 <= j < |completions| ==> IsPermutation(completions[j], |cfg.nodes|)
    ensures |entries| == |chunks|
    ensures forall j :: 0 <= j < |chunks| ==>
      && entries[j].order == j + 1
      && entries[j].chunkHash == digest(chunks[j])
      && multiset(Text.ParseNodeList(entries[j].storageNodes))
         == multiset(AckedNodes(cfg.nodes, Text.ChunkId(name, Some(j + 1)), chunks[j], put))
  {
    var holders := Holders(cfg, name, chunks, put, completions);
    var entries := seq(|chunks|, j requires 0 <= j < |chunks| =>
      ChunkEntry(j + 1, Text.JoinNodeList(holders[j]), digest(chunks[j])));
    forall j | 0 <= j < |chunks|
      ensures Text.ParseNodeList(entries[j].storageNodes) == holders[j]
    {
      Text.NodeListRoundTrip(holders[j]);
    }
    entries
  }

  /** The two metadata calls of an upload: `POST /files` with the file's
      name, hash, size and chunk count, then `POST /files/<id>/chunks`
      with the entries. */
  function RegisterUpload(reg: Registry.State, name: string, data: Bytes, entries: seq<ChunkEntry>, digest: Bytes -> string): (res: (Registry.State, nat))
    requires Registry.Valid(reg)
    ensures Registry.Valid(res.0)
    ensures res.1 == reg.nextId && res.1 !in reg.files
    ensures res.0.files == reg.files[res.1 := Registry.FileRecord(name, digest(data), |data|, |entries|)]
    ensures res.0.chunks == reg.chunks + seq(|entries|, j requires 0 <= j < |entries| => EntryRow(res.1, entries[j]))
  {
    var body := Registry.RegisterBody(Some(name), Some(digest(data)), Some(|data|), Some(|entries|));
    var (reg1, registered) := Registry.RegisterFile(reg, Some(body));
    var id := registered.id;
    var inputs := seq(|entries|, j requires 0 <= j < |entries| => EntryInput(entries[j]));
    var (reg2, _) := Registry.AddChunks(reg1, id, Some(inputs));
    assert reg2.files == reg.files[id := Registry.FileRecord(name, digest(data), |data|, |entries|)];
    assert reg2.chunks == reg.chunks + seq(|entries|, j requires 0 <= j < |entries| => EntryRow(id, entries[j])) by {
      assert reg2.chunks == reg2.chunks[..|reg.chunks|] + reg2.chunks[|reg.chunks|..];
    }
    (reg2, id)
  }

  /** The upload's partner: looking the new file up in the metadata
      service gives back its record and exactly its chunk entries, in
      order, provided no chunk rows were already filed under the fresh id
      (`add_chunks` accepts rows for ids no file has yet). */
  lemma {:induction false} UploadThenGetFile(cfg: Config, reg: Registry.State, f: FilePart, digest: Bytes -> string,
                                             put: (Node, string, Bytes) -> PutOutcome, completions: seq<seq<nat>>)
    requires ValidConfig(cfg)
    requires Registry.Valid(reg)
    requires UploadOrdersFit(cfg, Some(f), completions)
    requires Registry.ChunksOf(reg.chunks, reg.nextId) == []
    ensures var (reg', r) := UploadFile(cfg, reg, Some(f), digest, put, completions);
      r.Uploaded? ==> Registry.GetFile(reg', r.fileId) == Registry.FileInfo(r.fileId,
        Registry.FileRecord(f.filename, digest(f.data), |f.data|, r.totalChunks),
        seq(|r.chunkMetadata|, j requires 0 <= j < |r.chunkMetadata| => EntryChunk(r.chunkMetadata[j])))
  {
    var (reg', r) := UploadFile(cfg, reg, Some(f), digest, put, completions);
    if r.Uploaded? {
      ReadBackAppended(reg, reg', r.fileId, r.chunkMetadata);
    }
  }

  /** Entries numbered 1, 2, ... appended for a file that had no rows read
      back as exactly those chunks. */
  lemma ReadBackAppended(reg: Registry.State, reg': Registry.State, id: nat, entries: seq<ChunkEntry>)
    requires id in reg'.files
    requires Registry.ChunksOf(reg.chunks, id) == []
    requires reg'.chunks == reg.chunks + seq(|entries|, j requires 0 <= j < |entries| => EntryRow(id, entries[j]))
    requires forall j :: 0 <= j < |entries| ==> entries[j].order == j + 1
    ensures Registry.GetFile(reg', id) == Registry.FileInfo(id, reg'.files[id],
      seq(|entries|, j requires 0 <= j < |entries| => EntryChunk(entries[j])))
  {
    var mine := seq(|entries|, j requires 0 <= j < |entries| => EntryChunk(entries[j]));
    AppendedChunks(reg.chunks, id, entries);
    EntriesInOrder(entries);
  }

  lemma AppendedChunks(rows: seq<Registry.ChunkRow>, id: nat, entries: seq<ChunkEntry>)
    requires Registry.ChunksOf(rows, id) == []
    ensures Registry.ChunksOf(rows + seq(|entries|, j requires 0 <= j < |entries| => EntryRow(id, entries[j])), id)
         == seq(|entries|, j requires 0 <= j < |entries| => EntryChunk(entries[j]))
  {
    var added := seq(|entries|, j requires 0 <= j < |entries| => EntryRow(id, entries[j]));
    Registry.ChunksOfAppend(rows, added, id);
    Registry.ChunksOfOwn(added, id);
    assert [] + Registry.ChunksOf(added, id) == Registry.ChunksOf(added, id);
  }

  /** Chunks numbered 1, 2, ... are already in chunk order. */
  lemma EntriesInOrder(entries: seq<ChunkEntry>)
    requires forall j :: 0 <= j < |entries| ==> entries[j].order == j + 1
    ensures var mine := seq(|entries|, j requires 0 <= j < |entries| => EntryChunk(entries[j]));
      Registry.SortByOrder(mine) == mine
  {
    var mine := seq(|entries|, j requires 0 <= j < |entries| => EntryChunk(entries[j]));
    forall a, b | 0 <= a < b < |mine|
      ensures Registry.OrderLe(mine[a].order, mine[b].order)
    {
      assert mine[a].order == Some(a + 1) && mine[b].order == Some(b + 1);
    }
    Registry.SortSorted(mine);
  }

  // ---------------------------------------------------------------------
  // GET /download
  // ---------------------------------------------------------------------

  datatype DownloadReply =
    | DownloadBadRequest
    | DownloadCrashed
    | ChunkFailed(index: nat)
    | Downloaded(filename: string, data: Bytes)
  {
    function Status(): int {
      match this
      case DownloadBadRequest => 400
      case DownloadCrashed => 500
      case ChunkFailed(_) => 500
      case Downloaded(_, _) => 200
    }
  }

  /** One completion order of each row's holder race. */
  predicate RacesFit(rows: seq<Registry.Chunk>, races: seq<seq<nat>>) {
    && |races| == |rows|
    && forall j :: 0 <= j < |rows| ==> IsPermutation(races[j], |Text.ParseNodeList(rows[j].storageNodes)|)
  }

  predicate DownloadRacesFit(reg: Registry.State, fileId: IdParam, races: seq<seq<nat>>) {
    fileId.IdNumber? && fileId.id in reg.files ==> RacesFit(Registry.GetFile(reg, fileId.id).chunks, races)
  }

  /** The download task of each row: race its holders for
      `<filename>_chunk<order>`. */
  function DownloadTasks(filename: string, rows: seq<Registry.Chunk>, get: (Node, string) -> GetOutcome, races: seq<seq<nat>>): (r: seq<Attempt<Option<Bytes>>>)
    requires RacesFit(rows, races)
    ensures |r| == |rows|
    ensures forall j :: 0 <= j < |rows| ==>
      r[j] == DownloadReplicatedChunk(rows[j].storageNodes, Text.ChunkId(filename, rows[j].order), get, races[j])
  {
    seq(|rows|, j requires 0 <= j < |rows| =>
      DownloadReplicatedChunk(rows[j].storageNodes, Text.ChunkId(filename, rows[j].order), get, races[j]))
  }

  /** The future for order i finished with bytes. */
  predicate Good(futures: map<Option<int>, Attempt<Option<Bytes>>>, i: int) {
    Some(i) in futures && futures[Some(i)].Returned? && futures[Some(i)].value.Some?
  }

  /** How collecting orders from..total ends: all parts, the first order
      whose race found no holder with the chunk, or the first order with no
      task or whose task raised. */
  datatype Collected = Parts(parts: seq<Bytes>) | FailedAt(index: int) | CrashedAt(index: int)

  /** `for i in range(1, total_chunks + 1)`, from order `from` on: the
      parts of orders from..total in that order when every one of them
      has bytes; otherwise the first order that does not, and whether it
      failed (`None`) or crashed (no task, or its task raised). */
  function Collect(futures: map<Option<int>, Attempt<Option<Bytes>>>, from: int, total: int): (r: Collected)
    ensures r.Parts? <==> forall i :: from <= i <= total ==> Good(futures, i)
    ensures r.Parts? ==> |r.parts| == (if from <= total then total - from + 1 else 0)
    ensures r.Parts? ==> forall k :: 0 <= k < |r.parts| ==> Good(futures, from + k) && r.parts[k] == futures[Some(from + k)].value.value
    ensures !r.Parts? ==> from <= r.index <= total && forall i :: from <= i < r.index ==> Good(futures, i)
    ensures r.FailedAt? ==> Some(r.index) in futures && futures[Some(r.index)] == Returned(None)
    ensures r.CrashedAt? ==> Some(r.index) !in futures || futures[Some(r.index)].Raised?
    decreases if from <= total then total - from + 1 else 0
  {
    if from > total then Parts([])
    else if Some(from) !in futures || futures[Some(from)].Raised? then
      assert !Good(futures, from);
      CrashedAt(from)
    else if futures[Some(from)].value.None? then
      assert !Good(futures, from);
      FailedAt(from)
    else
      var rest := Collect(futures, from + 1, total);
      if rest.Parts? then
        assert forall i :: from <= i <= total ==> Good(futures, i) by {
          forall i | from <= i <= total
            ensures Good(futures, i)
          {
            if i > from {
              assert Good(futures, from + 1 + (i - from - 1));
            }
          }
        }
        Parts([futures[Some(from)].value.value] + rest.parts)
      else rest
  }

  /** `download_file`: 400 without a `file_id`. The metadata lookup must
      succeed (an unknown or unroutable id raises), and `total_chunks` must
      be positive for the pool to be built. Each row's race is then keyed
      by its order, and orders 1..total_chunks are collected in turn: a
      missing order or a raising race fails the request, a race that found
      nothing answers 500 naming that order, and otherwise the reply is the
      parts joined in order. */
  function DownloadFile(reg: Registry.State, fileId: IdParam, get: (Node, string) -> GetOutcome, races: seq<seq<nat>>): (r: DownloadReply)
    requires DownloadRacesFit(reg, fileId, races)
    ensures r.DownloadBadRequest? <==> fileId.NoId?
    ensures fileId.IdOther? || (fileId.IdNumber? && fileId.id !in reg.files) ==> r.DownloadCrashed?
    ensures fileId.IdNumber? && fileId.id in reg.files && reg.files[fileId.id].totalChunks <= 0 ==> r.DownloadCrashed?
    ensures r.Downloaded? || r.ChunkFailed? ==> fileId.IdNumber? && fileId.id in reg.files && 1 <= reg.files[fileId.id].totalChunks
    ensures r.Downloaded? ==> r.filename == reg.files[fileId.id].filename
    ensures r.ChunkFailed? ==> 1 <= r.index <= reg.files[fileId.id].totalChunks
    ensures fileId.IdNumber? && fileId.id in reg.files && reg.files[fileId.id].totalChunks >= 1 ==>
      var futures := Futures(reg, fileId.id, get, races);
      var total := reg.files[fileId.id].totalChunks;
      && (r.Downloaded? <==> GoodBelow(futures, total + 1))
      && (r.Downloaded? ==> r.data == Concat(GoodParts(futures, total)))
      && (r.ChunkFailed? ==> GoodBelow(futures, r.index) && Some(r.index) in futures && futures[Some(r.index)] == Returned(None))
      && (r.DownloadCrashed? ==> exists i :: 1 <= i <= total && GoodBelow(futures, i) && Crashing(futures, i))
  {
    if fileId.NoId? then DownloadBadRequest
    else
      var info := Lookup(reg, fileId);
      if info.FileMissing? then DownloadCrashed
      else if info.record.totalChunks <= 0 then DownloadCrashed
      else
        var filename := info.record.filename;
        var tasks := DownloadTasks(filename, info.chunks, get, races);
        var futures := ByOrder(Orders(info.chunks), tasks);
        var total := info.record.totalChunks;
        assert futures == Futures(reg, fileId.id, get, races);
        CollectOutcome(futures, total);
        match Collect(futures, 1, total)
        case Parts(parts) => Downloaded(filename, Concat(parts))
        case FailedAt(i) => ChunkFailed(i)
        case CrashedAt(_) => DownloadCrashed
  }

  /** How collecting orders 1..total ends, in terms of the futures alone:
      all parts exactly when every order has bytes; otherwise the first
      order without bytes, which failed or crashed. */
  lemma CollectOutcome(futures: map<Option<int>, Attempt<Option<Bytes>>>, total: int)
    requires total >= 1
    ensures var c := Collect(futures, 1, total);
      && (c.Parts? <==> GoodBelow(futures, total + 1))
      && (c.Parts? ==> c.parts == GoodParts(futures, total))
      && (c.FailedAt? ==> 1 <= c.index <= total && GoodBelow(futures, c.index) && Some(c.index) in futures && futures[Some(c.index)] == Returned(None))
      && (c.CrashedAt? ==> 1 <= c.index <= total && GoodBelow(futures, c.index) && Crashing(futures, c.index))
  {
    var c := Collect(futures, 1, total);
    if c.Parts? {
      assert |c.parts| == total;
      forall k | 0 <= k < total
        ensures c.parts[k] == GoodParts(futures, total)[k]
      {
        assert Good(futures, 1 + k);
      }
    }
  }

  /** The futures of a stored file's download, keyed by chunk order: the
      race of the last row with each order. */
  function Futures(reg: Registry.State, id: nat, get: (Node, string) -> GetOutcome, races: seq<seq<nat>>): map<Option<int>, Attempt<Option<Bytes>>>
    requires id in reg.files
    requires RacesFit(Registry.GetFile(reg, id).chunks, races)
  {
    var rows := Registry.GetFile(reg, id).chunks;
    ByOrder(Orders(rows), DownloadTasks(reg.files[id].filename, rows, get, races))
  }

  /** Every order before i has a future that finished with bytes. */
  predicate GoodBelow(futures: map<Option<int>, Attempt<Option<Bytes>>>, i: int) {
    forall j :: 1 <= j < i ==> Good(futures, j)
  }

  /** Order i has no future, or its future raised. */
  predicate Crashing(futures: map<Option<int>, Attempt<Option<Bytes>>>, i: int) {
    Some(i) !in futures || futures[Some(i)].Raised?
  }

  /** The bytes of orders 1..total, when all of them have some. */
  function GoodParts(futures: map<Option<int>, Attempt<Option<Bytes>>>, total: nat): (parts: seq<Bytes>)
    requires GoodBelow(futures, total + 1)
  {
    seq(total, k requires 0 <= k < total => assert Good(futures, k + 1); futures[Some(k + 1)].value.value)
  }

  /** Row j is the last row with order k+1, and its race returns part k. */
  predicate PartServed(rows: seq<Registry.Chunk>, filename: string, get: (Node, string) -> GetOutcome, races: seq<seq<nat>>, parts: seq<Bytes>, k: int, j: int)
    requires RacesFit(rows, races)
    requires 0 <= k < |parts|
  {
    && 0 <= j < |rows| && rows[j].order == Some(k + 1) && LastWith(Orders(rows), j)
    && DownloadReplicatedChunk(rows[j].storageNodes, Text.ChunkId(filename, Some(k + 1)), get, races[j]) == Returned(Some(parts[k]))
  }

  predicate Served(rows: seq<Registry.Chunk>, filename: string, get: (Node, string) -> GetOutcome, races: seq<seq<nat>>, parts: seq<Bytes>, k: int)
    requires RacesFit(rows, races)
    requires 0 <= k < |parts|
  {
    exists j :: 0 <= j < |rows| && PartServed(rows, filename, get, races, parts, k, j)
  }

  /** The download reference: when, for every order 1..total_chunks, the
      last row with that order is a race that returns bytes, the reply is
      those bytes joined in order. */
  lemma {:induction false} DownloadJoinsParts(reg: Registry.State, id: nat, get: (Node, string) -> GetOutcome, races: seq<seq<nat>>, parts: seq<Bytes>)
    requires id in reg.files
    requires RacesFit(Registry.GetFile(reg, id).chunks, races)
    requires |parts| == reg.files[id].totalChunks >= 1
    requires forall k :: 0 <= k < |parts| ==> Served(Registry.GetFile(reg, id).chunks, reg.files[id].filename, get, races, parts, k)
    ensures DownloadFile(reg, IdNumber(id), get, races) == Downloaded(reg.files[id].filename, Concat(parts))
  {
    var rows := Registry.GetFile(reg, id).chunks;
    var filename := reg.files[id].filename;
    var futures := ByOrder(Orders(rows), DownloadTasks(filename, rows, get, races));
    forall i | 1 <= i <= |parts|
      ensures Good(futures, i) && futures[Some(i)].value.value == parts[i - 1]
    {
      PartFuture(rows, filename, get, races, parts, i - 1);
    }
    CollectAll(futures, parts);
    DownloadOfCollected(reg, id, get, races, parts);
  }

  /** A served part is what the future of its order holds. */
  lemma PartFuture(rows: seq<Registry.Chunk>, filename: string, get: (Node, string) -> GetOutcome, races: seq<seq<nat>>, parts: seq<Bytes>, k: nat)
    requires RacesFit(rows, races)
    requires k < |parts|
    requires Served(rows, filename, get, races, parts, k)
    ensures var futures := ByOrder(Orders(rows), DownloadTasks(filename, rows, get, races));
      Good(futures, k + 1) && futures[Some(k + 1)].value.value == parts[k]
  {
    var j :| 0 <= j < |rows| && PartServed(rows, filename, get, races, parts, k, j);
    assert Orders(rows)[j] == Some(k + 1);
  }

  /** When collecting the futures of a stored file gives parts, the
      download answers with them joined. */
  lemma DownloadOfCollected(reg: Registry.State, id: nat, get: (Node, string) -> GetOutcome, races: seq<seq<nat>>, parts: seq<Bytes>)
    requires id in reg.files
    requires RacesFit(Registry.GetFile(reg, id).chunks, races)
    requires reg.files[id].totalChunks >= 1
    requires var rows := Registry.GetFile(reg, id).chunks;
      Collect(ByOrder(Orders(rows), DownloadTasks(reg.files[id].filename, rows, get, races)), 1, reg.files[id].totalChunks) == Parts(parts)
    ensures DownloadFile(reg, IdNumber(id), get, races) == Downloaded(reg.files[id].filename, Concat(parts))
  {
    var info := Lookup(reg, IdNumber(id));
    assert info == Registry.GetFile(reg, id);
    assert info.record == reg.files[id];
  }

  /** When order k+1 holds part k for every k, collecting gives the parts. */
  lemma CollectAll(futures: map<Option<int>, Attempt<Option<Bytes>>>, parts: seq<Bytes>)
    requires forall i :: 1 <= i <= |parts| ==> Good(futures, i) && futures[Some(i)].value.value == parts[i - 1]
    ensures Collect(futures, 1, |parts|) == Parts(parts)
  {
    var c := Collect(futures, 1, |parts|);
    assert c.parts == parts;
  }

  // ---------------------------------------------------------------------
  // DELETE /delete
  // ---------------------------------------------------------------------

  datatype DeleteReply =
    | DeleteBadRequest
    | DeleteNotFound
    | DeleteCrashed
    | MetadataDeleteFailed
    | Deleted(results: map<Option<int>, map<Node, NodeResult>>)
  {
    function Status(): int {
      match this
      case DeleteBadRequest => 400
      case DeleteNotFound => 404
      case DeleteCrashed => 500
      case MetadataDeleteFailed => 500
      case Deleted(_) => 200
    }
  }

  /** The per-node results of deleting one row's chunk: one entry per
      holder of the row, that node's own result. */
  predicate NodeResultsMatch(row: Registry.Chunk, filename: string, del: (Node, string) -> DelOutcome, m: map<Node, NodeResult>) {
    && m.Keys == (set x | x in Text.ParseNodeList(row.storageNodes))
    && forall x :: x in m ==> m[x] == DeleteResult(del(x, Text.ChunkId(filename, row.order)))
  }

  /** `delete_results`: one entry per chunk order of the file, holding the
      per-node results of the last row with that order. */
  predicate ResultsMatch(rows: seq<Registry.Chunk>, filename: string, del: (Node, string) -> DelOutcome, results: map<Option<int>, map<Node, NodeResult>>) {
    && results.Keys == (set o | o in Orders(rows))
    && forall j :: 0 <= j < |rows| && LastWith(Orders(rows), j) ==>
         rows[j].order in results && NodeResultsMatch(rows[j], filename, del, results[rows[j].order])
  }

  /** The delete task of each row. Its result does not depend on the order
      the node deletes complete in (`DeleteResultsAgree`), so the jobs are
      taken in configuration order. */
  function DeleteTasks(filename: string, rows: seq<Registry.Chunk>, del: (Node, string) -> DelOutcome): (r: seq<Attempt<map<Node, NodeResult>>>)
    ensures |r| == |rows|
    ensures forall j :: 0 <= j < |rows| ==> (r[j].Raised? <==> |Text.ParseNodeList(rows[j].storageNodes)| == 0)
    ensures forall j :: 0 <= j < |rows| && r[j].Returned? ==> NodeResultsMatch(rows[j], filename, del, r[j].value)
  {
    seq(|rows|, j requires 0 <= j < |rows| =>
      var n := |Text.ParseNodeList(rows[j].storageNodes)|;
      DeleteReplicatedChunk(rows[j].storageNodes, Text.ChunkId(filename, rows[j].order), del, Indices(n)))
  }

  /** The request fails, after all node deletes ran, when the file has no
      chunk row, or when the last row of some order has no holder. */
  predicate DeleteCrashes(rows: seq<Registry.Chunk>) {
    || |rows| == 0
    || exists j :: 0 <= j < |rows| && LastWith(Orders(rows), j) && |Text.ParseNodeList(rows[j].storageNodes)| == 0
  }

  /** `delete_file`: 400 without a `file_id`, 404 when the metadata lookup
      does not answer 200. Otherwise every row's holders are told to delete
      that row's chunk; if the request survives that, the metadata is
      deleted and the reply maps each chunk order to the per-node results
      of the last row with that order. The metadata is changed only on
      success, and then exactly as the registry's delete changes it; the
      node deletes of a request that crashes have still run. */
  function DeleteFile(reg: Registry.State, fileId: IdParam, del: (Node, string) -> DelOutcome): (res: (Registry.State, DeleteReply))
    requires Registry.Valid(reg)
    ensures Registry.Valid(res.0)
    ensures res.1.DeleteBadRequest? <==> fileId.NoId?
    ensures res.1.DeleteNotFound? <==> fileId.IdOther? || (fileId.IdNumber? && fileId.id !in reg.files)
    ensures res.1.DeleteCrashed? <==> fileId.IdNumber? && fileId.id in reg.files && DeleteCrashes(Registry.GetFile(reg, fileId.id).chunks)
    ensures !res.1.MetadataDeleteFailed?
    ensures !res.1.Deleted? ==> res.0 == reg
    ensures res.1.Deleted? ==>
      && fileId.IdNumber? && fileId.id in reg.files
      && res.0 == Registry.DeleteFile(reg, fileId.id).0
      && ResultsMatch(Registry.GetFile(reg, fileId.id).chunks, reg.files[fileId.id].filename, del, res.1.results)
  {
    if fileId.NoId? then (reg, DeleteBadRequest)
    else
      var info := Lookup(reg, fileId);
      if info.FileMissing? then (reg, DeleteNotFound)
      else
        var rows := info.chunks;
        var tasks := DeleteTasks(info.record.filename, rows, del);
        var futures := ByOrder(Orders(rows), tasks);
        DeleteCrashIff(info.record.filename, rows, del);
        if |rows| == 0 || AnyRaised(futures) then
          (reg, DeleteCrashed)
        else
          var (reg', deleted) := Registry.DeleteFile(reg, fileId.id);
          DeleteResultsMatch(info.record.filename, rows, del, tasks);
          if deleted.DeleteMissing? then (reg, MetadataDeleteFailed)
          else (reg', Deleted(ReturnedValues(futures)))
  }

  /** The request crashes exactly when `DeleteCrashes` says. */
  lemma DeleteCrashIff(filename: string, rows: seq<Registry.Chunk>, del: (Node, string) -> DelOutcome)
    ensures (|rows| == 0 || AnyRaised(ByOrder(Orders(rows), DeleteTasks(filename, rows, del)))) <==> DeleteCrashes(rows)
  {
    var tasks := DeleteTasks(filename, rows, del);
    KeptRaise(Orders(rows), tasks);
  }

  /** Without a crash, the reply holds each order's last row's results. */
  lemma DeleteResultsMatch(filename: string, rows: seq<Registry.Chunk>, del: (Node, string) -> DelOutcome, tasks: seq<Attempt<map<Node, NodeResult>>>)
    requires |tasks| == |rows|
    requires forall j :: 0 <= j < |rows| && tasks[j].Returned? ==> NodeResultsMatch(rows[j], filename, del, tasks[j].value)
    requires !AnyRaised(ByOrder(Orders(rows), tasks))
    ensures ResultsMatch(rows, filename, del, ReturnedValues(ByOrder(Orders(rows), tasks)))
  {
    var futures := ByOrder(Orders(rows), tasks);
    var results := ReturnedValues(futures);
    forall j | 0 <= j < |rows| && LastWith(Orders(rows), j)
      ensures rows[j].order in results && NodeResultsMatch(rows[j], filename, del, results[rows[j].order])
    {
      KeptResults(filename, rows, del, tasks, j);
    }
  }

  /** The values of tasks none of which raised. */
  function ReturnedValues<V>(futures: map<Option<int>, Attempt<V>>): (m: map<Option<int>, V>)
    requires !AnyRaised(futures)
    ensures m.Keys == futures.Keys
    ensures forall o :: o in m ==> futures[o] == Returned(m[o])
  {
    map o | o in futures :: futures[o].value
  }

  /** The last row with an order has its own task's results kept. */
  lemma KeptResults(filename: string, rows: seq<Registry.Chunk>, del: (Node, string) -> DelOutcome, tasks: seq<Attempt<map<Node, NodeResult>>>, j: nat)
    requires |tasks| == |rows|
    requires j < |rows| && LastWith(Orders(rows), j)
    requires tasks[j].Returned? ==> NodeResultsMatch(rows[j], filename, del, tasks[j].value)
    requires !AnyRaised(ByOrder(Orders(rows), tasks))
    ensures var futures := ByOrder(Orders(rows), tasks);
      && rows[j].order in futures
      && NodeResultsMatch(rows[j], filename, del, futures[rows[j].order].value)
  {
    var futures := ByOrder(Orders(rows), tasks);
    LastIsKept(Orders(rows), tasks, j);
    assert Orders(rows)[j] == rows[j].order;
    assert futures[rows[j].order] == tasks[j];
    assert !futures[rows[j].order].Raised?;
  }

  /** Once the gateway has deleted a file, downloading it fails and
      deleting it again answers 404, whatever the nodes answer; every other
      file still reads back from the metadata service as before. */
  lemma DeleteThenGone(reg: Registry.State, id: nat, del: (Node, string) -> DelOutcome, del': (Node, string) -> DelOutcome,
                       get: (Node, string) -> GetOutcome, races: seq<seq<nat>>, other: nat)
    requires Registry.Valid(reg)
    requires DeleteFile(reg, IdNumber(id), del).1.Deleted?
    requires other != id
    ensures var reg' := DeleteFile(reg, IdNumber(id), del).0;
      && DeleteFile(reg', IdNumber(id), del').1 == DeleteNotFound
      && DownloadRacesFit(reg', IdNumber(id), races)
      && DownloadFile(reg', IdNumber(id), get, races) == DownloadCrashed
      && Registry.GetFile(reg', other) == Registry.GetFile(reg, other)
  {
    Registry.DeleteIsFinal(reg, id, other);
  }

  /** Some kept task raised. */
  predicate AnyRaised<V>(futures: map<Option<int>, Attempt<V>>) {
    exists o :: o in futures && futures[o].Raised?
  }

  /** A kept task raises exactly when the last task of some key raises. */
  lemma KeptRaise<V>(keys: seq<Option<int>>, tasks: seq<Attempt<V>>)
    requires |keys| == |tasks|
    ensures AnyRaised(ByOrder(keys, tasks)) <==> exists j :: 0 <= j < |keys| && LastWith(keys, j) && tasks[j].Raised?
  {
    var futures := ByOrder(keys, tasks);
    if o :| o in futures && futures[o].Raised? {
      KeptFromLast(keys, tasks, o);
    }
    if j :| 0 <= j < |keys| && LastWith(keys, j) && tasks[j].Raised? {
      LastIsKept(keys, tasks, j);
    }
  }

  lemma LastIsKept<V>(keys: seq<Option<int>>, tasks: seq<Attempt<V>>, j: nat)
    requires |keys| == |tasks|
    requires j < |keys| && LastWith(keys, j)
    ensures var futures := ByOrder(keys, tasks); keys[j] in futures && futures[keys[j]] == tasks[j]
  {
  }

  lemma KeptFromLast<V>(keys: seq<Option<int>>, tasks: seq<Attempt<V>>, o: Option<int>)
    requires |keys| == |tasks|
    requires o in ByOrder(keys, tasks)
    ensures exists j :: 0 <= j < |keys| && LastWith(keys, j) && keys[j] == o && ByOrder(keys, tasks)[o] == tasks[j]
  {
    var j := LastIndexOfOrder(keys, o);
    assert ByOrder(keys, tasks)[keys[j]] == tasks[j];
  }

  /** The position of the last entry with key o. */
  lemma LastIndexOfOrder(keys: seq<Option<int>>, o: Option<int>) returns (j: nat)
    requires o in keys
    ensures j < |keys| && keys[j] == o && LastWith(keys, j)
  {
    var i :| 0 <= i < |keys| && keys[i] == o;
    j := i;
    while j + 1 < |keys| && o in keys[j + 1..]
      invariant i <= j < |keys| && keys[j] == o
      decreases |keys| - j
    {
      var k :| j + 1 <= k < |keys| && keys[k] == o by {
        var m :| 0 <= m < |keys[j + 1..]| && keys[j + 1..][m] == o;
        assert keys[j + 1 + m] == o;
      }
      j := k;
    }
    forall k | j < k < |keys|
      ensures keys[k] != o
    {
      assert keys[k] == keys[j + 1..][k - j - 1];
    }
  }
}

=== FILE: legacy_registry.dfy ===
/**
  The older metadata service (metadata/app.py). Its tables and its
  register, add-chunks, get and list endpoints behave exactly like the
  registry of backend/metadata/app.py, so those are the same transitions;
  its delete additionally removes the chunk files a local deployment kept
  in three folders before dropping the rows.
 */
module LegacyRegistry {
  import opened Base
  import Text
  import Registry

  // ---------------------------------------------------------------------
  // Endpoints shared with the newer registry.
  // ---------------------------------------------------------------------

  /** `POST /files`: 400 without a `filename`, otherwise the record with
      its defaults is stored under a fresh id. */
  function RegisterFile(s: Registry.State, body: Option<Registry.RegisterBody>): (res: (Registry.State, Registry.RegisterReply))
    requires Registry.Valid(s)
    ensures Registry.Valid(res.0)
    ensures res.1.RegisterRejected? <==> body.None? || body.value.filename.None?
    ensures res.1.RegisterRejected? ==> res.0 == s && res.1.Status() == 400
    ensures res.1.Registered? ==>
      && res.1.Status() == 201
      && res.1.id !in s.files
      && res.0.files == s.files[res.1.id := Registry.RecordOf(body.value)]
      && res.0.chunks == s.chunks
  {
    Registry.RegisterFile(s, body)
  }

  /** `POST /files/<file_id>/chunks`: 400 without `chunks`, otherwise one
      row per chunk with `''` defaults. */
  function AddChunks(s: Registry.State, fileId: nat, chunks: Option<seq<Registry.ChunkInput>>): (res: (Registry.State, Registry.AddReply))
    requires Registry.Valid(s)
    ensures Registry.Valid(res.0)
    ensures res.1.ChunksRejected? <==> chunks.None?
    ensures chunks.None? ==> res.0 == s && res.1.Status() == 400
    ensures chunks.Some? ==> res.1.Status() == 201 && res.0.files == s.files
    ensures chunks.Some? ==>
      res.0.chunks == s.chunks + seq(|chunks.value|, j requires 0 <= j < |chunks.value| => Registry.RowOf(fileId, chunks.value[j]))
  {
    var res := Registry.AddChunks(s, fileId, chunks);
    if chunks.Some? then
      var added := seq(|chunks.value|, j requires 0 <= j < |chunks.value| => Registry.RowOf(fileId, chunks.value[j]));
      assert res.0.chunks == s.chunks + added by {
        assert res.0.chunks == res.0.chunks[..|s.chunks|] + res.0.chunks[|s.chunks|..];
      }
      res
    else res
  }

  /** `GET /files/<file_id>`: 404 for an unknown id, otherwise the file's
      chunks ordered by `chunk_order`. */
  function GetFile(s: Registry.State, id: nat): (r: Registry.GetReply)
    ensures r.FileMissing? <==> id !in s.files
    ensures r.FileMissing? ==> r.Status() == 404
    ensures r.FileInfo? ==>
      && r.Status() == 200 && r.id == id && r.record == s.files[id]
      && Registry.Sorted(r.chunks) && multiset(r.chunks) == multiset(Registry.ChunksOf(s.chunks, id))
  {
    Registry.GetFile(s, id)
  }

  /** `GET /files`: one listing per stored file. */
  method ListFiles(s: Registry.State) returns (entries: seq<Registry.Listing>)
    requires Registry.Valid(s)
    ensures |entries| == |s.files|
    ensures forall j :: 0 <= j < |entries| ==> entries[j].id in s.files && entries[j].record == s.files[entries[j].id]
    ensures forall id :: id in s.files ==> exists j :: 0 <= j < |entries| && entries[j].id == id
    ensures forall j, k :: 0 <= j < k < |entries| ==> entries[j].id < entries[k].id
  {
    entries := Registry.ListFiles(s);
  }

  // ---------------------------------------------------------------------
  // os.path.splitext
  // ---------------------------------------------------------------------

  /** Index of the last occurrence of c in s, or -1. */
  function LastIndexOf(s: string, c: char): (i: int)
    ensures -1 <= i < |s|
    ensures i >= 0 ==> s[i] == c
    ensures forall k :: i < k < |s| ==> s[k] != c
  {
    if |s| == 0 then -1
    else if s[|s| - 1] == c then |s| - 1
    else LastIndexOf(s[..|s| - 1], c)
  }

  /** `os.path.splitext(p)` on POSIX: the extension starts at the last
      dot of the last path component, unless everything before that dot in
      the component is dots; the two parts always rebuild the name. */
  function SplitExt(p: string): (parts: (string, string))
    ensures parts.0 + parts.1 == p
    ensures parts.1 == "" || (parts.1[0] == '.' && '.' !in parts.1[1..] && '/' !in parts.1)
    ensures parts.1 != "" ==> |parts.0| == LastIndexOf(p, '.')
    ensures parts.1 != "" <==>
      && LastIndexOf(p, '.') > LastIndexOf(p, '/')
      && exists k :: LastIndexOf(p, '/') < k < LastIndexOf(p, '.') && p[k] != '.'
  {
    var sepIndex := LastIndexOf(p, '/');
    var dotIndex := LastIndexOf(p, '.');
    if dotIndex > sepIndex && exists k :: sepIndex + 1 <= k < dotIndex && p[k] != '.' then
      assert p[..dotIndex] + p[dotIndex..] == p;
      (p[..dotIndex], p[dotIndex..])
    else
      assert p + "" == p;
      (p, "")
  }

  // ---------------------------------------------------------------------
  // Chunk-file cleanup
  // ---------------------------------------------------------------------

  /** The three folders a local deployment kept chunk files in. */
  const Folders: seq<string> := ["folder1", "folder2", "folder3"]

  /** A chunk file: its folder and its file name. */
  datatype Path = Path(folder: string, name: string)

  /** The local folders: which files exist, and which of them cannot be
      removed (their `os.remove` raises). */
  datatype Disk = Disk(present: set<Path>, failing: set<Path>)

  /** `f"{base_name}_chunk{order}{extension}"`. */
  function ChunkFileName(base: string, order: nat, ext: string): string {
    Text.ChunkId(base, Some(order)) + ext
  }

  /** The paths the cleanup visits, orders 1..total outermost, then the
      three folders. */
  function CleanupTargets(base: string, ext: string, total: int): (targets: seq<Path>)
    ensures forall p :: p in targets <==>
      exists o: nat :: 1 <= o <= total && p.folder in Folders && p.name == ChunkFileName(base, o, ext)
    decreases if total < 0 then 0 else total
  {
    if total <= 0 then []
    else
      var earlier := CleanupTargets(base, ext, total - 1);
      var name := ChunkFileName(base, total, ext);
      var here := [Path(Folders[0], name), Path(Folders[1], name), Path(Folders[2], name)];
      assert forall p :: p in here <==> p.folder in Folders && p.name == name;
      earlier + here
  }

  /** Visits the targets in order: a present file is removed unless its
      removal fails, in which case the path is recorded as an error and
      the file stays; a missing file is skipped without error. */
  function RemoveAll(disk: Disk, targets: seq<Path>): (res: (Disk, seq<Path>))
    ensures res.0.failing == disk.failing
    ensures forall p :: p in res.0.present <==> p in disk.present && (p !in targets || p in disk.failing)
    ensures forall p :: p in res.1 <==> p in targets && p in disk.present && p in disk.failing
    decreases |targets|
  {
    if |targets| == 0 then (disk, [])
    else
      var p := targets[0];
      var step :=
        if p !in disk.present then (disk, [])
        else if p in disk.failing then (disk, [p])
        else (Disk(disk.present - {p}, disk.failing), []);
      var rest := RemoveAll(step.0, targets[1..]);
      assert forall q :: q in targets <==> q == p || q in targets[1..];
      (rest.0, step.1 + rest.1)
  }

  datatype LegacyDeleteReply = LegacyMissing | LegacyDeleted | LegacyPartial(errors: seq<Path>) {
    function Status(): int {
      match this
      case LegacyMissing => 404
      case LegacyDeleted => 200
      case LegacyPartial(_) => 207
    }
  }

  /** `DELETE /files/<file_id>`: 404 with nothing changed for an unknown
      id. Otherwise every chunk file of orders 1..total_chunks is removed
      from each of the three folders where it exists, then the file and
      its chunk rows are dropped whatever happened on disk; the answer is
      207 with the paths that could not be removed, or 200 if there were
      none. */
  function DeleteFile(s: Registry.State, id: nat, disk: Disk): (res: (Registry.State, Disk, LegacyDeleteReply))
    requires Registry.Valid(s)
    ensures Registry.Valid(res.0)
    ensures res.2.LegacyMissing? <==> id !in s.files
    ensures res.2.LegacyMissing? ==> res.0 == s && res.1 == disk && res.2.Status() == 404
    ensures id in s.files ==>
      && var rec := s.files[id];
      && var (base, ext) := SplitExt(rec.filename);
      && var targets := CleanupTargets(base, ext, rec.totalChunks);
      && res.0 == Registry.DeleteFile(s, id).0
      && res.0.files.Keys == s.files.Keys - {id}
      && Registry.ChunksOf(res.0.chunks, id) == []
      && (forall p :: p in res.1.present <==> p in disk.present && (p !in targets || p in disk.failing))
      && (res.2.Status() == 207 <==> exists p :: p in targets && p in disk.present && p in disk.failing)
      && (res.2.Status() == 200 <==> !exists p :: p in targets && p in disk.present && p in disk.failing)
      && (res.2.LegacyPartial? ==> forall p :: p in res.2.errors <==> p in targets && p in disk.present && p in disk.failing)
  {
    if id !in s.files then (s, disk, LegacyMissing)
    else
      var rec := s.files[id];
      var (base, ext) := SplitExt(rec.filename);
      var (disk', errors) := RemoveAll(disk, CleanupTargets(base, ext, rec.totalChunks));
      var s' := Registry.DeleteFile(s, id).0;
      if |errors| > 0 then
        assert errors[0] in errors;
        (s', disk', LegacyPartial(errors))
      else
        (s', disk', LegacyDeleted)
  }
}

=== FILE: registry.dfy ===
/**
  The metadata registry (backend/metadata/app.py): a `files` table keyed
  by an auto-incremented id and a `chunks` table whose rows point at a
  file id. The tables are a map and a sequence of rows in insertion order;
  every endpoint is a pure transition on them.
 */
module Registry {
  import opened Base

  datatype FileRecord = FileRecord(filename: string, fileHash: string, fileSize: int, totalChunks: int)

  /** One chunk mapping as `get_file` returns it. */
  datatype Chunk = Chunk(order: Option<int>, storageNodes: string, chunkHash: string)

  /** A row of the `chunks` table. */
  datatype ChunkRow = ChunkRow(fileId: int, chunk: Chunk)

  /** `nextId` is the id SQLite's AUTOINCREMENT hands out next. */
  datatype State = State(files: map<nat, FileRecord>, chunks: seq<ChunkRow>, nextId: nat)

  /** Empty tables: the first file gets id 1. */
  const Empty := State(map[], [], 1)

  /** Every id in use is positive and below the next one to be handed out. */
  predicate Valid(s: State) {
    s.nextId >= 1 && forall id :: id in s.files ==> 1 <= id < s.nextId
  }

  // ---------------------------------------------------------------------
  // Request bodies; a missing JSON key is None.
  // ---------------------------------------------------------------------

  datatype RegisterBody = RegisterBody(
    filename: Option<string>, fileHash: Option<string>, fileSize: Option<int>, totalChunks: Option<int>)

  datatype ChunkInput = ChunkInput(order: Option<int>, storageNodes: Option<string>, chunkHash: Option<string>)

  // ---------------------------------------------------------------------
  // Replies
  // ---------------------------------------------------------------------

  datatype RegisterReply = Registered(id: nat, record: FileRecord) | RegisterRejected {
    function Status(): int { if Registered? then 201 else 400 }
  }

  datatype AddReply = ChunksAdded | ChunksRejected {
    function Status(): int { if ChunksAdded? then 201 else 400 }
  }

  datatype GetReply = FileInfo(id: nat, record: FileRecord, chunks: seq<Chunk>) | FileMissing {
    function Status(): int { if FileInfo? then 200 else 404 }
  }

  datatype DeleteReply = FileDeleted | DeleteMissing {
    function Status(): int { if FileDeleted? then 200 else 404 }
  }

  /** One entry of `list_files`. */
  datatype Listing = Listing(id: nat, record: FileRecord)

  // ---------------------------------------------------------------------
  // Row helpers
  // ---------------------------------------------------------------------

  /** The chunks of one file, in row order (`WHERE file_id=?`). */
  function ChunksOf(rows: seq<ChunkRow>, id: int): (r: seq<Chunk>)
    ensures forall c :: c in r <==> ChunkRow(id, c) in rows
  {
    if |rows| == 0 then []
    else (if rows[0].fileId == id then [rows[0].chunk] else []) + ChunksOf(rows[1..], id)
  }

  lemma {:induction false} ChunksOfAppend(a: seq<ChunkRow>, b: seq<ChunkRow>, id: int)
    ensures ChunksOf(a + b, id) == ChunksOf(a, id) + ChunksOf(b, id)
  {
    if |a| == 0 {
      assert a + b == b;
    } else {
      assert (a + b)[1..] == a[1..] + b;
      ChunksOfAppend(a[1..], b, id);
    }
  }

  /** Rows that all belong to file `id` read back as their chunks, in row
      order. */
  lemma {:induction false} ChunksOfOwn(rows: seq<ChunkRow>, id: int)
    requires forall j :: 0 <= j < |rows| ==> rows[j].fileId == id
    ensures ChunksOf(rows, id) == seq(|rows|, j requires 0 <= j < |rows| => rows[j].chunk)
  {
    if |rows| > 0 {
      ChunksOfOwn(rows[1..], id);
    }
  }

  /** The rows that do not belong to file `id` (`DELETE ... WHERE file_id=?`). */
  function RowsExcept(rows: seq<ChunkRow>, id: int): (r: seq<ChunkRow>)
    ensures forall row :: row in r <==> row in rows && row.fileId != id
  {
    if |rows| == 0 then []
    else (if rows[0].fileId != id then [rows[0]] else []) + RowsExcept(rows[1..], id)
  }

  /** Removing the rows of one file leaves every other file's chunk list,
      order included, as it was, and nothing of the removed file. */
  lemma {:induction false} RowsExceptChunks(rows: seq<ChunkRow>, id: int, other: int)
    ensures ChunksOf(RowsExcept(rows, id), other) == if other == id then [] else ChunksOf(rows, other)
  {
    if |rows| > 0 {
      RowsExceptChunks(rows[1..], id, other);
      var head := if rows[0].fileId != id then [rows[0]] else [];
      ChunksOfAppend(head, RowsExcept(rows[1..], id), other);
    }
  }

  /** SQLite's `ORDER BY chunk_order`: NULL orders sort first. */
  predicate OrderLe(a: Option<int>, b: Option<int>) {
    a.None? || (b.Some? && a.value <= b.value)
  }

  predicate Sorted(s: seq<Chunk>) {
    forall i, j :: 0 <= i < j < |s| ==> OrderLe(s[i].order, s[j].order)
  }

  /** Removing the rows of `id` from rows that all belong to it leaves none. */
  lemma {:induction false} RowsExceptOnly(rows: seq<ChunkRow>, id: int)
    requires forall r :: r in rows ==> r.fileId == id
    ensures RowsExcept(rows, id) == []
  {
    if |rows| > 0 {
      assert rows[0] in rows;
      assert forall r :: r in rows[1..] ==> r in rows;
      RowsExceptOnly(rows[1..], id);
    }
  }

  /** Rows of other files followed by rows of `id` lose exactly the latter
      when the rows of `id` are removed. */
  lemma {:induction false} RowsExceptAppended(rows: seq<ChunkRow>, added: seq<ChunkRow>, id: int)
    requires forall r :: r in rows ==> r.fileId != id
    requires forall r :: r in added ==> r.fileId == id
    ensures RowsExcept(rows + added, id) == rows
  {
    if |rows| == 0 {
      assert rows + added == added;
      RowsExceptOnly(added, id);
    } else {
      assert (rows + added)[1..] == rows[1..] + added;
      assert rows[0] in rows;
      assert forall r :: r in rows[1..] ==> r in rows;
      RowsExceptAppended(rows[1..], added, id);
    }
  }

  /** Puts `c` before the first chunk whose order is not below it. */
  function Insert(c: Chunk, s: seq<Chunk>): (r: seq<Chunk>)
    requires Sorted(s)
    ensures Sorted(r)
    ensures multiset(r) == multiset(s) + multiset{c}
    ensures forall x :: x in r <==> x == c || x in s
  {
    if |s| == 0 then [c]
    else if OrderLe(c.order, s[0].order) then [c] + s
    else
      var rest := Insert(c, s[1..]);
      assert s == [s[0]] + s[1..];
      assert forall k :: 0 <= k < |rest| ==> OrderLe(s[0].order, rest[k].order) by {
        forall k | 0 <= k < |rest|
          ensures OrderLe(s[0].order, rest[k].order)
        {
          assert rest[k] in rest;
          if rest[k] != c {
            var m :| 0 <= m < |s[1..]| && s[1..][m] == rest[k];
            assert s[m + 1] == rest[k];
          }
        }
      }
      [s[0]] + rest
  }

  /** A stable sort by chunk order: a sorted permutation of its input. */
  function SortByOrder(s: seq<Chunk>): (r: seq<Chunk>)
    ensures Sorted(r)
    ensures multiset(r) == multiset(s)
  {
    if |s| == 0 then []
    else
      assert s == [s[0]] + s[1..];
      Insert(s[0], SortByOrder(s[1..]))
  }

  /** Chunks already in order come back unchanged. */
  lemma {:induction false} SortSorted(s: seq<Chunk>)
    requires Sorted(s)
    ensures SortByOrder(s) == s
  {
    if |s| > 0 {
      SortSorted(s[1..]);
      if |s| > 1 {
        assert OrderLe(s[0].order, s[1].order);
      }
      assert [s[0]] + s[1..] == s;
    }
  }

  // ---------------------------------------------------------------------
  // Endpoints
  // ---------------------------------------------------------------------

  /** The record `register_file` stores: missing hash, size and chunk
      count default to `''`, 0 and 0. */
  function RecordOf(body: RegisterBody): (rec: FileRecord)
    requires body.filename.Some?
    ensures rec.filename == body.filename.value
    ensures rec.fileHash == (if body.fileHash.Some? then body.fileHash.value else "")
    ensures rec.fileSize == (if body.fileSize.Some? then body.fileSize.value else 0)
    ensures rec.totalChunks == (if body.totalChunks.Some? then body.totalChunks.value else 0)
  {
    FileRecord(body.filename.value, body.fileHash.GetOr(""), body.fileSize.GetOr(0), body.totalChunks.GetOr(0))
  }

  /** `POST /files`: 400 and no change without a body or a `filename`;
      otherwise the record is stored under an id no file uses, the reply
      echoes it with status 201, and no other file or chunk changes. */
  function RegisterFile(s: State, body: Option<RegisterBody>): (res: (State, RegisterReply))
    requires Valid(s)
    ensures Valid(res.0)
    ensures res.1.RegisterRejected? <==> body.None? || body.value.filename.None?
    ensures res.1.RegisterRejected? ==> res.0 == s && res.1.Status() == 400
    ensures res.1.Registered? ==>
      && res.1.Status() == 201
      && res.1.id == s.nextId && res.1.id !in s.files
      && res.1.record == RecordOf(body.value)
      && res.0.files.Keys == s.files.Keys + {res.1.id}
      && res.0.files[res.1.id] == res.1.record
      && (forall id :: id in s.files ==> res.0.files[id] == s.files[id])
      && res.0.chunks == s.chunks
  {
    if body.None? || body.value.filename.None? then (s, RegisterRejected)
    else
      var id := s.nextId;
      var rec := RecordOf(body.value);
      (State(s.files[id := rec], s.chunks, s.nextId + 1), Registered(id, rec))
  }

  /** A chunk row built from one submitted chunk: missing `storage_nodes`
      and `chunk_hash` default to `''`, the order is kept as given. */
  function RowOf(fileId: nat, c: ChunkInput): (row: ChunkRow)
    ensures row.fileId == fileId && row.chunk.order == c.order
    ensures row.chunk.storageNodes == (if c.storageNodes.Some? then c.storageNodes.value else "")
    ensures row.chunk.chunkHash == (if c.chunkHash.Some? then c.chunkHash.value else "")
  {
    ChunkRow(fileId, Chunk(c.order, c.storageNodes.GetOr(""), c.chunkHash.GetOr("")))
  }

  /** `POST /files/<file_id>/chunks`: 400 and no change without a `chunks`
      list; otherwise one row per submitted chunk is appended, in order,
      whether or not `file_id` names a stored file. */
  function AddChunks(s: State, fileId: nat, chunks: Option<seq<ChunkInput>>): (res: (State, AddReply))
    requires Valid(s)
    ensures Valid(res.0)
    ensures res.1.ChunksRejected? <==> chunks.None?
    ensures chunks.None? ==> res.0 == s && res.1.Status() == 400
    ensures chunks.Some? ==>
      && res.1.Status() == 201
      && res.0.files == s.files && res.0.nextId == s.nextId
      && |res.0.chunks| == |s.chunks| + |chunks.value|
      && res.0.chunks[..|s.chunks|] == s.chunks
      && forall j :: 0 <= j < |chunks.value| ==> res.0.chunks[|s.chunks| + j] == RowOf(fileId, chunks.value[j])
  {
    if chunks.None? then (s, ChunksRejected)
    else
      var added := seq(|chunks.value|, j requires 0 <= j < |chunks.value| => RowOf(fileId, chunks.value[j]));
      (State(s.files, s.chunks + added, s.nextId), ChunksAdded)
  }

  /** `GET /files/<file_id>`: 404 for an unknown id; otherwise the stored
      record with exactly that file's chunks, sorted by chunk order. */
  function GetFile(s: State, id: nat): (r: GetReply)
    ensures r.FileMissing? <==> id !in s.files
    ensures r.FileMissing? ==> r.Status() == 404
    ensures r.FileInfo? ==>
      && r.Status() == 200
      && r.id == id && r.record == s.files[id]
      && Sorted(r.chunks)
      && multiset(r.chunks) == multiset(ChunksOf(s.chunks, id))
  {
    if id !in s.files then FileMissing
    else FileInfo(id, s.files[id], SortByOrder(ChunksOf(s.chunks, id)))
  }

  /** `DELETE /files/<file_id>`: 404 and no change for an unknown id;
      otherwise the file and all of its chunk rows are removed and every
      other file keeps its record and its chunk list. */
  function DeleteFile(s: State, id: nat): (res: (State, DeleteReply))
    requires Valid(s)
    ensures Valid(res.0)
    ensures res.1.DeleteMissing? <==> id !in s.files
    ensures res.1.DeleteMissing? ==> res.0 == s && res.1.Status() == 404
    ensures res.1.FileDeleted? ==>
      && res.1.Status() == 200
      && res.0.files.Keys == s.files.Keys - {id}
      && (forall other :: other in res.0.files ==> res.0.files[other] == s.files[other])
      && ChunksOf(res.0.chunks, id) == []
      && (forall other :: other != id ==> ChunksOf(res.0.chunks, other) == ChunksOf(s.chunks, other))
      && res.0.nextId == s.nextId
  {
    if id !in s.files then (s, DeleteMissing)
    else
      var rows := RowsExcept(s.chunks, id);
      RowsExceptChunks(s.chunks, id, id);
      assert forall other :: other != id ==> ChunksOf(rows, other) == ChunksOf(s.chunks, other) by {
        forall other | other != id
          ensures ChunksOf(rows, other) == ChunksOf(s.chunks, other)
        {
          RowsExceptChunks(s.chunks, id, other);
        }
      }
      (State(s.files - {id}, rows, s.nextId), FileDeleted)
  }

  /** Deleting the file whose rows were appended last, after rows of other
      files only, gives back exactly the earlier rows. */
  lemma DeleteDropsAppended(s: State, id: nat, before: seq<ChunkRow>, added: seq<ChunkRow>)
    requires Valid(s) && id in s.files
    requires s.chunks == before + added
    requires ChunksOf(before, id) == []
    requires forall r :: r in added ==> r.fileId == id
    ensures DeleteFile(s, id).0.chunks == before
  {
    RowsExceptAppended(before, added, id);
  }

  /** Once a file is deleted, fetching or deleting it again answers 404,
      while every other file reads back exactly as before. */
  lemma DeleteIsFinal(s: State, id: nat, other: nat)
    requires Valid(s)
    requires id in s.files && other != id
    ensures var s' := DeleteFile(s, id).0;
            && GetFile(s', id) == FileMissing
            && DeleteFile(s', id).1 == DeleteMissing
            && GetFile(s', other) == GetFile(s, other)
  {
  }

  /** `GET /files`: one listing per stored file, in id order, each with
      the stored record. */
  method ListFiles(s: State) returns (entries: seq<Listing>)
    requires Valid(s)
    ensures forall j :: 0 <= j < |entries| ==> entries[j].id in s.files && entries[j].record == s.files[entries[j].id]
    ensures forall id :: id in s.files ==> exists j :: 0 <= j < |entries| && entries[j].id == id
    ensures forall j, k :: 0 <= j < k < |entries| ==> entries[j].id < entries[k].id
    ensures |entries| == |s.files|
  {
    entries := [];
    var i := 1;
    while i < s.nextId
      invariant 1 <= i <= s.nextId
      invariant ListedBelow(s.files, entries, i)
    {
      var before := entries;
      if i in s.files {
        entries := entries + [Listing(i, s.files[i])];
      }
      ListStep(s.files, before, entries, i);
      i := i + 1;
    }
    ListingCount(entries, s.files.Keys);
  }

  /** The listing holds exactly the stored files with ids below `bound`,
      each with its record, in increasing id order. */
  predicate ListedBelow(files: map<nat, FileRecord>, entries: seq<Listing>, bound: nat) {
    && (forall j :: 0 <= j < |entries| ==> entries[j].id in files && entries[j].id < bound && entries[j].record == files[entries[j].id])
    && (forall id :: id in files && id < bound ==> exists j :: 0 <= j < |entries| && entries[j].id == id)
    && (forall j, k :: 0 <= j < k < |entries| ==> entries[j].id < entries[k].id)
  }

  /** One step of the listing loop: id i is appended when it is stored. */
  lemma ListStep(files: map<nat, FileRecord>, before: seq<Listing>, entries: seq<Listing>, i: nat)
    requires ListedBelow(files, before, i)
    requires entries == if i in files then before + [Listing(i, files[i])] else before
    ensures ListedBelow(files, entries, i + 1)
  {
    StepRecords(files, before, entries, i);
    StepCovers(files, before, entries, i);
    StepSorted(files, before, entries, i);
  }

  lemma StepRecords(files: map<nat, FileRecord>, before: seq<Listing>, entries: seq<Listing>, i: nat)
    requires forall j :: 0 <= j < |before| ==> before[j].id in files && before[j].id < i && before[j].record == files[before[j].id]
    requires entries == if i in files then before + [Listing(i, files[i])] else before
    ensures forall j :: 0 <= j < |entries| ==> entries[j].id in files && entries[j].id < i + 1 && entries[j].record == files[entries[j].id]
  {
  }

  lemma StepCovers(files: map<nat, FileRecord>, before: seq<Listing>, entries: seq<Listing>, i: nat)
    requires forall id :: id in files && id < i ==> exists j :: 0 <= j < |before| && before[j].id == id
    requires entries == if i in files then before + [Listing(i, files[i])] else before
    ensures forall id :: id in files && id < i + 1 ==> exists j :: 0 <= j < |entries| && entries[j].id == id
  {
    forall id | id in files && id < i + 1
      ensures exists j :: 0 <= j < |entries| && entries[j].id == id
    {
      if id == i {
        assert entries[|entries| - 1].id == id;
      } else {
        var j :| 0 <= j < |before| && before[j].id == id;
        assert entries[j].id == id;
      }
    }
  }

  lemma StepSorted(files: map<nat, FileRecord>, before: seq<Listing>, entries: seq<Listing>, i: nat)
    requires forall j :: 0 <= j < |before| ==> before[j].id < i
    requires forall j, k :: 0 <= j < k < |before| ==> before[j].id < before[k].id
    requires entries == if i in files then before + [Listing(i, files[i])] else before
    ensures forall j, k :: 0 <= j < k < |entries| ==> entries[j].id < entries[k].id
  {
  }

  /** Ids listed in increasing order and covering a set are as many as the
      set has members. */
  lemma {:induction false} ListingCount(entries: seq<Listing>, ids: set<nat>)
    requires forall j :: 0 <= j < |entries| ==> entries[j].id in ids
    requires forall id :: id in ids ==> exists j :: 0 <= j < |entries| && entries[j].id == id
    requires forall j, k :: 0 <= j < k < |entries| ==> entries[j].id < entries[k].id
    ensures |entries| == |ids|
  {
    if |entries| > 0 {
      var last := entries[|entries| - 1];
      var front := entries[..|entries| - 1];
      var rest := ids - {last.id};
      forall id | id in rest
        ensures exists j :: 0 <= j < |front| && front[j].id == id
      {
        var j :| 0 <= j < |entries| && entries[j].id == id;
        assert j < |entries| - 1;
        assert front[j].id == id;
      }
      forall j | 0 <= j < |front|
        ensures front[j].id in rest
      {
        assert entries[j].id < last.id;
      }
      ListingCount(front, rest);
    } else {
      assert ids == {};
    }
  }
}

=== FILE: storage_node.dfy ===
/**
  A storage node: a directory of chunk files, modelled as a map from the
  file name `chunk_<chunk_id>` to the bytes saved under it together with
  the file names the filesystem refuses to save or remove, and the three
  endpoints `upload_chunk`, `download_chunk` and `delete_chunk`.
 */
module StorageNode {
  import opened Base

  type Store = map<string, Bytes>

  /** The name under which a chunk id is kept: `f"chunk_{chunk_id}"`. */
  function StorageKey(chunkId: string): string {
    "chunk_" + chunkId
  }

  lemma StorageKeyInjective(a: string, b: string)
    requires StorageKey(a) == StorageKey(b)
    ensures a == b
  {
    assert StorageKey(a)[6..] == a;
    assert StorageKey(b)[6..] == b;
  }

  /** What a node sends back: a JSON message or error, the `{'error':
      str(e)}` of a filesystem exception (its text is not modelled), or the
      chunk file. */
  datatype Body = Message(text: string) | Failure | Payload(bytes: Bytes)

  datatype Response = Response(status: int, body: Body)

  /** A node's chunk directory: the files it holds, the file names whose
      `save` raises (a full or read-only disk, or a chunk id naming a
      subdirectory that does not exist) and those whose `os.remove`
      raises. */
  datatype State = State(files: Store, saveFails: set<string>, removeFails: set<string>)

  /** `POST /upload_chunk` with an optional `chunk` file part and an
      optional `chunk_id` form field. A missing part, or a missing or
      empty id, is refused with 400 and nothing is stored. A save that
      raises answers 500 and leaves the directory as it was. Otherwise the
      bytes replace whatever was stored under the key, every other key
      keeps its bytes, and the node answers 201. */
  function UploadChunk(node: State, part: Option<Bytes>, chunkId: Option<string>): (res: (State, Response))
    ensures part.None? || chunkId.None? || chunkId == Some("") ==> res.0 == node && res.1.status == 400
    ensures part.Some? && chunkId.Some? && chunkId.value != "" && StorageKey(chunkId.value) in node.saveFails ==>
      res.0 == node && res.1.status == 500
    ensures part.Some? && chunkId.Some? && chunkId.value != "" && StorageKey(chunkId.value) !in node.saveFails ==>
      && res.1.status == 201
      && res.0.saveFails == node.saveFails && res.0.removeFails == node.removeFails
      && var key := StorageKey(chunkId.value);
      && res.0.files.Keys == node.files.Keys + {key}
      && res.0.files[key] == part.value
      && forall k :: k in node.files && k != key ==> res.0.files[k] == node.files[k]
  {
    if part.None? then
      (node, Response(400, Message("No chunk file provided")))
    else if chunkId.None? || chunkId.value == "" then
      (node, Response(400, Message("Missing chunk_id")))
    else
      var id := chunkId.value;
      if StorageKey(id) in node.saveFails then (node, Response(500, Failure))
      else
        (node.(files := node.files[StorageKey(id) := part.value]),
         Response(201, Message("Chunk " + id + " uploaded successfully")))
  }

  /** `GET /download_chunk/<chunk_id>`: 404 when nothing is stored under
      the key, otherwise 200 with exactly the stored bytes. */
  function DownloadChunk(node: State, chunkId: string): (res: Response)
    ensures StorageKey(chunkId) !in node.files <==> res.status == 404
    ensures StorageKey(chunkId) in node.files ==> res == Response(200, Payload(node.files[StorageKey(chunkId)]))
  {
    var key := StorageKey(chunkId);
    if key !in node.files then Response(404, Message("Chunk not found"))
    else Response(200, Payload(node.files[key]))
  }

  /** `DELETE /delete_chunk/<chunk_id>`: 404 and no change when nothing is
      stored under the key, 500 and no change when the removal raises;
      otherwise that one key is removed, every other key keeps its bytes,
      and the node answers 200. */
  function DeleteChunk(node: State, chunkId: string): (res: (State, Response))
    ensures StorageKey(chunkId) !in node.files ==> res.0 == node && res.1.status == 404
    ensures StorageKey(chunkId) in node.files && StorageKey(chunkId) in node.removeFails ==>
      res.0 == node && res.1.status == 500
    ensures StorageKey(chunkId) in node.files && StorageKey(chunkId) !in node.removeFails ==>
      && res.1.status == 200
      && res.0.saveFails == node.saveFails && res.0.removeFails == node.removeFails
      && res.0.files.Keys == node.files.Keys - {StorageKey(chunkId)}
      && forall k :: k in res.0.files ==> res.0.files[k] == node.files[k]
  {
    var key := StorageKey(chunkId);
    if key !in node.files then (node, Response(404, Message("Chunk not found")))
    else if key in node.removeFails then (node, Response(500, Failure))
    else (node.(files := node.files - {key}), Response(200, Message("Chunk " + chunkId + " deleted successfully")))
  }

  /** A successful upload followed by a download of the same id returns the
      uploaded bytes; an upload whose save raises stores nothing, so a
      download of a fresh id then answers 404. */
  lemma UploadThenDownload(node: State, chunkId: string, bytes: Bytes)
    requires chunkId != ""
    ensures var (s, r) := UploadChunk(node, Some(bytes), Some(chunkId));
      && (StorageKey(chunkId) !in node.saveFails ==> r.status == 201 && DownloadChunk(s, chunkId) == Response(200, Payload(bytes)))
      && (StorageKey(chunkId) in node.saveFails ==> r.status == 500 && DownloadChunk(s, chunkId) == DownloadChunk(node, chunkId))
  {
  }

  /** After a successful delete the chunk is gone: downloading it and
      deleting it again both answer 404, and other chunks are still served
      as before. A removal that raises leaves the chunk served. */
  lemma DeleteThenAccess(node: State, chunkId: string, other: string)
    requires StorageKey(chunkId) in node.files
    requires other != chunkId
    ensures var (s, r) := DeleteChunk(node, chunkId);
      && (StorageKey(chunkId) !in node.removeFails ==>
            && r.status == 200
            && DownloadChunk(s, chunkId).status == 404
            && DeleteChunk(s, chunkId).1.status == 404)
      && (StorageKey(chunkId) in node.removeFails ==>
            r.status == 500 && DownloadChunk(s, chunkId).status == 200)
      && DownloadChunk(s, other) == DownloadChunk(node, other)
  {
    if StorageKey(other) == StorageKey(chunkId) {
      StorageKeyInjective(other, chunkId);
    }
  }

  /** Uploads of different chunk ids commute, so the order in which
      concurrent puts of one file's chunks reach a node does not matter. */
  lemma UploadsCommute(node: State, a: string, x: Bytes, b: string, y: Bytes)
    requires a != "" && b != "" && a != b
    ensures UploadChunk(UploadChunk(node, Some(x), Some(a)).0, Some(y), Some(b)).0
         == UploadChunk(UploadChunk(node, Some(y), Some(b)).0, Some(x), Some(a)).0
  {
    if StorageKey(a) == StorageKey(b) {
      StorageKeyInjective(a, b);
    }
  }
}

=== FILE: text.dfy ===
/**
  The string handling the gateway relies on: decimal text of chunk orders,
  chunk identifiers `<name>_chunk<order>`, and the comma-separated holder
  lists it writes with `",".join` and reads back with
  `[n.strip() for n in s.split(",") if n.strip()]`.
 */
module Text {
  import opened Base

  // ---------------------------------------------------------------------
  // Decimal text, as Python's `str()` and f-strings write integers.
  // ---------------------------------------------------------------------

  predicate IsDigit(c: char) {
    '0' <= c <= '9'
  }

  predicate AllDigits(s: string) {
    forall i :: 0 <= i < |s| ==> IsDigit(s[i])
  }

  function DigitChar(d: nat): char
    requires d < 10
  {
    (48 + d) as char
  }

  function DigitValue(c: char): nat
    requires IsDigit(c)
  {
    (c as int) - 48
  }

  /** Decimal digits of n, most significant first, without leading zeros. */
  function NatText(n: nat): (s: string)
    ensures 1 <= |s|
    ensures AllDigits(s)
    decreases n
  {
    if n < 10 then [DigitChar(n)] else NatText(n / 10) + [DigitChar(n % 10)]
  }

  /** The number a string of decimal digits denotes. */
  function DecimalValue(s: string): nat
    requires AllDigits(s)
  {
    if |s| == 0 then 0 else 10 * DecimalValue(s[..|s| - 1]) + DigitValue(s[|s| - 1])
  }

  /** Reading back the decimal text of n gives n. */
  lemma {:induction false} NatTextRoundTrip(n: nat)
    ensures DecimalValue(NatText(n)) == n
    decreases n
  {
    if n >= 10 {
      var s := NatText(n);
      assert s[..|s| - 1] == NatText(n / 10);
      NatTextRoundTrip(n / 10);
    }
  }

  lemma NatTextInjective(a: nat, b: nat)
    requires NatText(a) == NatText(b)
    ensures a == b
  {
    NatTextRoundTrip(a);
    NatTextRoundTrip(b);
  }

  /** Python's `str(i)` for an integer: a minus sign for negatives. */
  function IntText(i: int): string {
    if i < 0 then "-" + NatText(-i) else NatText(i)
  }

  /** Python's f-string rendering of an optional integer: `None` for a
      missing chunk order. */
  function OrderText(order: Option<int>): string {
    match order
    case None => "None"
    case Some(i) => IntText(i)
  }

  /** The first character tells the three renderings apart: `N` for
      `None`, `-` for a negative order, a digit otherwise. */
  lemma OrderTextHead(order: Option<int>)
    ensures |OrderText(order)| > 0
    ensures order.None? ==> OrderText(order)[0] == 'N'
    ensures order.Some? && order.value < 0 ==> OrderText(order)[0] == '-'
    ensures order.Some? && order.value >= 0 ==> IsDigit(OrderText(order)[0])
  {
  }

  /** Distinct orders are rendered as distinct texts. */
  lemma OrderTextInjective(a: Option<int>, b: Option<int>)
    requires OrderText(a) == OrderText(b)
    ensures a == b
  {
    OrderTextHead(a);
    OrderTextHead(b);
    if a.Some? && b.Some? && a.value < 0 && b.value < 0 {
      assert OrderText(a)[1..] == NatText(-a.value);
      assert OrderText(b)[1..] == NatText(-b.value);
      NatTextInjective(-a.value, -b.value);
    } else if a.Some? && b.Some? && a.value >= 0 && b.value >= 0 {
      NatTextInjective(a.value, b.value);
    }
  }

  // ---------------------------------------------------------------------
  // Chunk identifiers.
  // ---------------------------------------------------------------------

  /** `f"{filename}_chunk{order}"`: the name under which a chunk of a file
      is stored on every node (backend/main/app.py lines 121, 184, 218). */
  function ChunkId(filename: string, order: Option<int>): string {
    filename + "_chunk" + OrderText(order)
  }

  /** Within one file, different chunk orders give different chunk ids, so
      the chunks of one upload never overwrite each other on a node. */
  lemma ChunkIdInjective(filename: string, a: Option<int>, b: Option<int>)
    requires ChunkId(filename, a) == ChunkId(filename, b)
    ensures a == b
  {
    var k := |filename| + 6;
    assert ChunkId(filename, a)[k..] == OrderText(a);
    assert ChunkId(filename, b)[k..] == OrderText(b);
    OrderTextInjective(a, b);
  }

  // ---------------------------------------------------------------------
  // str.strip()
  // ---------------------------------------------------------------------

  /** The characters Python's `str.isspace` accepts, which `str.strip()`
      with no argument removes. */
  predicate IsSpace(c: char) {
    || c == ' '
    || ('\t' <= c <= '\r')
    || ('\U{1C}' <= c <= '\U{1F}')
    || c == '\U{85}'
    || c == '\U{A0}'
    || c == '\U{1680}'
    || ('\U{2000}' <= c <= '\U{200A}')
    || c == '\U{2028}'
    || c == '\U{2029}'
    || c == '\U{202F}'
    || c == '\U{205F}'
    || c == '\U{3000}'
  }

  /** Drops leading white space; the result is a suffix of s. */
  function TrimLeft(s: string): (r: string)
    ensures |r| <= |s| && r == s[|s| - |r|..]
    ensures |r| > 0 ==> !IsSpace(r[0])
    ensures forall k :: 0 <= k < |s| - |r| ==> IsSpace(s[k])
    decreases |s|
  {
    if |s| > 0 && IsSpace(s[0]) then TrimLeft(s[1..]) else s
  }

  /** Drops trailing white space; the result is a prefix of s. */
  function TrimRight(s: string): (r: string)
    ensures |r| <= |s| && r == s[..|r|]
    ensures |r| > 0 ==> !IsSpace(r[|r| - 1])
    ensures forall k :: |r| <= k < |s| ==> IsSpace(s[k])
    decreases |s|
  {
    if |s| > 0 && IsSpace(s[|s| - 1]) then TrimRight(s[..|s| - 1]) else s
  }

  predicate IsStripped(s: string) {
    |s| == 0 || (!IsSpace(s[0]) && !IsSpace(s[|s| - 1]))
  }

  /** s[i..j] is what is left of s once white space only is cut from
      either end. */
  predicate TrimmedSlice(s: string, i: int, j: int) {
    && 0 <= i <= j <= |s|
    && (forall k :: 0 <= k < i ==> IsSpace(s[k]))
    && (forall k :: j <= k < |s| ==> IsSpace(s[k]))
  }

  /** `s.strip()`: a slice of s with only white space cut from either end,
      and none left at either end of it. */
  function Strip(s: string): (r: string)
    ensures IsStripped(r)
    ensures exists i, j :: TrimmedSlice(s, i, j) && r == s[i..j]
  {
    var l := TrimLeft(s);
    var r := TrimRight(l);
    TrimBoth(s);
    TrimBothSpace(s);
    if |r| > 0 then
      assert r[0] == l[0];
      r
    else r
  }

  /** Trimming both ends leaves a slice of s ... */
  lemma TrimBoth(s: string)
    ensures var l := TrimLeft(s);
      var i := |s| - |l|;
      TrimRight(l) == s[i..i + |TrimRight(l)|]
  {
    var l := TrimLeft(s);
    PrefixOfSuffix(s, |s| - |l|, |TrimRight(l)|);
  }

  /** ... with only white space cut off. */
  lemma TrimBothSpace(s: string)
    ensures var l := TrimLeft(s);
      var i := |s| - |l|;
      TrimmedSlice(s, i, i + |TrimRight(l)|)
  {
    var l := TrimLeft(s);
    SpaceAfter(s, |s| - |l|, |TrimRight(l)|);
  }

  /** What TrimRight cuts from the suffix s[i..] is white space of s. */
  lemma SpaceAfter(s: string, i: nat, n: nat)
    requires i <= |s| && n <= |s| - i
    requires forall k :: n <= k < |s[i..]| ==> IsSpace(s[i..][k])
    ensures forall k :: i + n <= k < |s| ==> IsSpace(s[k])
  {
    forall k | i + n <= k < |s|
      ensures IsSpace(s[k])
    {
      assert s[k] == s[i..][k - i];
    }
  }

  /** A prefix of a suffix is a slice. */
  lemma PrefixOfSuffix<T>(s: seq<T>, i: nat, n: nat)
    requires i + n <= |s|
    ensures s[i..][..n] == s[i..i + n]
  {
  }

  lemma TrimLeftStripped(s: string)
    requires |s| == 0 || !IsSpace(s[0])
    ensures TrimLeft(s) == s
  {
  }

  lemma TrimRightStripped(s: string)
    requires |s| == 0 || !IsSpace(s[|s| - 1])
    ensures TrimRight(s) == s
  {
  }

  /** Stripping a string without surrounding white space changes nothing. */
  lemma StripStripped(s: string)
    requires IsStripped(s)
    ensures Strip(s) == s
  {
    TrimLeftStripped(s);
    TrimRightStripped(s);
  }

  // ---------------------------------------------------------------------
  // str.split(sep) and sep.join(parts)
  // ---------------------------------------------------------------------

  /** `s.split(sep)` for a one-character separator: always at least one
      piece, none containing the separator ("" splits into [""]). */
  function SplitOn(s: string, sep: char): (parts: seq<string>)
    ensures |parts| >= 1
    ensures forall p :: p in parts ==> sep !in p
    decreases |s|
  {
    if |s| == 0 then [""]
    else
      var rest := SplitOn(s[1..], sep);
      if s[0] == sep then [""] + rest
      else [[s[0]] + rest[0]] + rest[1..]
  }

  /** `sep.join(parts)`. */
  function JoinWith(parts: seq<string>, sep: char): string {
    if |parts| == 0 then ""
    else if |parts| == 1 then parts[0]
    else parts[0] + [sep] + JoinWith(parts[1..], sep)
  }

  /** A separator-free prefix glues onto the first piece of what follows. */
  lemma {:induction false} SplitPrefix(a: string, t: string, sep: char)
    requires sep !in a
    ensures SplitOn(a + t, sep) == [a + SplitOn(t, sep)[0]] + SplitOn(t, sep)[1..]
    decreases |a|
  {
    if |a| > 0 {
      assert (a + t)[1..] == a[1..] + t;
      SplitPrefix(a[1..], t, sep);
      assert [a[0]] + (a[1..] + SplitOn(t, sep)[0]) == a + SplitOn(t, sep)[0];
    } else {
      assert a + t == t;
      assert a + SplitOn(t, sep)[0] == SplitOn(t, sep)[0];
      assert SplitOn(t, sep) == [SplitOn(t, sep)[0]] + SplitOn(t, sep)[1..];
    }
  }

  /** Splitting what was joined gives back the pieces, provided no piece
      contains the separator. */
  lemma {:induction false} SplitJoin(parts: seq<string>, sep: char)
    requires |parts| >= 1
    requires forall p :: p in parts ==> sep !in p
    ensures SplitOn(JoinWith(parts, sep), sep) == parts
  {
    if |parts| == 1 {
      SplitPrefix(parts[0], "", sep);
      assert parts[0] + "" == parts[0];
    } else {
      var rest := JoinWith(parts[1..], sep);
      assert parts[0] + [sep] + rest == parts[0] + ([sep] + rest);
      SplitPrefix(parts[0], [sep] + rest, sep);
      assert ([sep] + rest)[1..] == rest;
      assert forall p :: p in parts[1..] ==> p in parts;
      SplitJoin(parts[1..], sep);
      assert parts[0] + "" == parts[0];
    }
  }

  /** Joining what was split gives back the string. */
  lemma {:induction false} JoinSplit(s: string, sep: char)
    ensures JoinWith(SplitOn(s, sep), sep) == s
    decreases |s|
  {
    if |s| > 0 {
      var rest := SplitOn(s[1..], sep);
      JoinSplit(s[1..], sep);
      if s[0] == sep {
        assert JoinWith([""] + rest, sep) == "" + [sep] + JoinWith(rest, sep);
        assert s == [s[0]] + s[1..];
      } else {
        var parts := [[s[0]] + rest[0]] + rest[1..];
        if |rest| == 1 {
          assert JoinWith(rest, sep) == rest[0];
        } else {
          assert parts[1..] == rest[1..];
          assert JoinWith(rest, sep) == rest[0] + [sep] + JoinWith(rest[1..], sep);
        }
        assert s == [s[0]] + s[1..];
      }
    }
  }

  // ---------------------------------------------------------------------
  // Holder lists: comma-joined node names.
  // ---------------------------------------------------------------------

  /** A node name that survives being written into and read back from a
      holder list: non-empty, no comma, no surrounding white space. */
  predicate WellFormedNode(n: string) {
    n != "" && ',' !in n && IsStripped(n)
  }

  /** `[p.strip() for p in parts if p.strip()]`. */
  function StripNonBlank(parts: seq<string>): seq<string> {
    if |parts| == 0 then []
    else
      var x := Strip(parts[0]);
      (if x == "" then [] else [x]) + StripNonBlank(parts[1..])
  }

  lemma {:induction false} StripNonBlankWellFormed(parts: seq<string>)
    requires forall p :: p in parts ==> ',' !in p
    ensures forall n :: n in StripNonBlank(parts) ==> WellFormedNode(n)
  {
    if |parts| > 0 {
      assert parts[0] in parts;
      assert forall p :: p in parts[1..] ==> p in parts;
      StripNonBlankWellFormed(parts[1..]);
    }
  }

  lemma StripNonBlankCons(x: string, rest: seq<string>)
    requires WellFormedNode(x)
    ensures StripNonBlank([x] + rest) == [x] + StripNonBlank(rest)
  {
    StripStripped(x);
    assert ([x] + rest)[0] == x;
    assert ([x] + rest)[1..] == rest;
  }

  lemma {:induction false} StripNonBlankKeeps(parts: seq<string>)
    requires forall p :: p in parts ==> WellFormedNode(p)
    ensures StripNonBlank(parts) == parts
  {
    if |parts| > 0 {
      assert parts[0] in parts;
      assert parts == [parts[0]] + parts[1..];
      StripNonBlankCons(parts[0], parts[1..]);
      assert forall p :: p in parts[1..] ==> p in parts;
      StripNonBlankKeeps(parts[1..]);
    }
  }

  /** The node list a comma-separated string denotes: the configured
      storage nodes (backend/main/app.py line 16) and every chunk's holder
      list (lines 67 and 88) are read this way. Every name it yields is
      well formed. */
  function ParseNodeList(s: string): (nodes: seq<string>)
    ensures forall n :: n in nodes ==> WellFormedNode(n)
  {
    StripNonBlankWellFormed(SplitOn(s, ','));
    StripNonBlank(SplitOn(s, ','))
  }

  /** `",".join(nodes)`: the holder list recorded for a chunk. */
  function JoinNodeList(nodes: seq<string>): string {
    JoinWith(nodes, ',')
  }

  /** Holder names that are well formed survive the trip through the
      registry: joined at upload, parsed at download and delete. */
  lemma NodeListRoundTrip(nodes: seq<string>)
    requires forall n :: n in nodes ==> WellFormedNode(n)
    ensures ParseNodeList(JoinNodeList(nodes)) == nodes
  {
    if |nodes| == 0 {
      assert SplitOn("", ',') == [""];
      assert Strip("") == "";
    } else {
      SplitJoin(nodes, ',');
      StripNonBlankKeeps(nodes);
    }
  }

  /** Splitting at one separator splits the two sides apart. */
  lemma {:induction false} SplitOnAt(a: string, b: string, sep: char)
    ensures SplitOn(a + [sep] + b, sep) == SplitOn(a, sep) + SplitOn(b, sep)
    decreases |a|
  {
    var s := a + [sep] + b;
    var right := SplitOn(b, sep);
    if |a| == 0 {
      assert s == [sep] + b;
      assert s[1..] == b;
    } else {
      assert s[0] == a[0];
      assert s[1..] == a[1..] + [sep] + b;
      SplitOnAt(a[1..], b, sep);
      var left := SplitOn(a[1..], sep);
      var rest := SplitOn(s[1..], sep);
      if a[0] != sep {
        AppendFirst(left, right);
        AppendAssociative([[a[0]] + left[0]], left[1..], right);
      } else {
        AppendAssociative([""], left, right);
      }
    }
  }

  /** The first element and the rest of a concatenation whose left part is
      not empty. */
  lemma AppendFirst<T>(l: seq<T>, r: seq<T>)
    requires |l| > 0
    ensures (l + r)[0] == l[0] && (l + r)[1..] == l[1..] + r
  {
  }

  /** A string without the separator is one piece. */
  lemma SplitOnNone(s: string, sep: char)
    requires sep !in s
    ensures SplitOn(s, sep) == [s]
  {
    SplitPrefix(s, "", sep);
    assert s + "" == s;
  }

  /** Blank-dropping works piece by piece. */
  lemma {:induction false} StripNonBlankAppend(x: seq<string>, y: seq<string>)
    ensures StripNonBlank(x + y) == StripNonBlank(x) + StripNonBlank(y)
    decreases |x|
  {
    if |x| == 0 {
      assert x + y == y;
      assert StripNonBlank(x) == [];
    } else {
      StripNonBlankStep(x, y);
      StripNonBlankAppend(x[1..], y);
      var head := if Strip(x[0]) == "" then [] else [Strip(x[0])];
      var front, back := StripNonBlank(x[1..]), StripNonBlank(y);
      assert StripNonBlank(x + y) == head + (front + back);
      AppendAssociative(head, front, back);
    }
  }

  /** Sequence concatenation is associative, for any element type. */
  lemma AppendAssociative<T>(a: seq<T>, b: seq<T>, c: seq<T>)
    ensures a + (b + c) == (a + b) + c
  {
  }

  /** One step of blank-dropping over a concatenation. */
  lemma StripNonBlankStep(x: seq<string>, y: seq<string>)
    requires |x| > 0
    ensures StripNonBlank(x + y) == (if Strip(x[0]) == "" then [] else [Strip(x[0])]) + StripNonBlank(x[1..] + y)
    ensures StripNonBlank(x) == (if Strip(x[0]) == "" then [] else [Strip(x[0])]) + StripNonBlank(x[1..])
  {
    assert (x + y)[0] == x[0];
    assert (x + y)[1..] == x[1..] + y;
  }

  /** A comma splits a holder list into the holders on either side of it,
      in order. */
  lemma ParseNodeListComma(a: string, b: string)
    ensures ParseNodeList(a + [','] + b) == ParseNodeList(a) + ParseNodeList(b)
  {
    SplitOnAt(a, b, ',');
    StripNonBlankAppend(SplitOn(a, ','), SplitOn(b, ','));
  }

  /** A comma-free piece is one holder, stripped, or none when it is blank. */
  lemma ParseNodeListPiece(s: string)
    requires ',' !in s
    ensures ParseNodeList(s) == if Strip(s) == "" then [] else [Strip(s)]
  {
    SplitOnNone(s, ',');
    assert StripNonBlank([s]) == (if Strip(s) == "" then [] else [Strip(s)]) + StripNonBlank([]) by {
      assert [s][0] == s && [s][1..] == [];
    }
  }

  /** Re-joining a parsed list and parsing it again is stable. */
  lemma ParseJoinParse(s: string)
    ensures ParseNodeList(JoinNodeList(ParseNodeList(s))) == ParseNodeList(s)
  {
    NodeListRoundTrip(ParseNodeList(s));
  }
}
